=== FILE: README.md ===
# DiggingGame bookkeeping in Dafny

DiggingGame is a two-player digging board game. This project models three
small pieces of bookkeeping in it:

- **The board canvas** (`ExampleCanvasManager`, module `Turns`). It keeps the
  turn counters: current player, turn, round and phase. Its buttons (start
  turn, "Then" phase, dig, build, mine menu, "Finally" phase, activate menu,
  back, end turn) first switch off every listed canvas object. Each then
  switches on the zones that belong to the current player and phase.
- **A card in the online game** (`OnlineCardController`, module `Cards`).
  A card can be selected and deselected. It can be activated, which is paid
  for from the current player's refined piles and is capped by an allowance.
  It can be discarded from a hand or from a persistent area. It can show one
  enlarged copy of itself. Each remote procedure call is modelled as its body
  applied at once on the one client in view: `AddToDiscarded`, `RemoveCard`
  and `RemoveFromPersistent`.
- **The options menu** (`OptionsMenu`, module `Options`). The master
  volume and the mute flag decide what the master channel of the audio mixer
  receives. A dropdown offers one "width x height" option per screen
  resolution and preselects 1920x1080.

Two support modules hold the library behaviour the code relies on:

- `Lists`: `List.Remove` drops the first occurrence and ignores absent
  elements.
- `Decimal`: `int.ToString()`, which the option labels use.

The canvas and the options menu are classes. Their methods update fields,
and `for` loops build the object list and the option list. Each method is
proved against a pure function of the old state: `Advance`/`Shown` for the
canvas, `DiscardedCard`/`DiscardedTables` and `Outcome`/`PayFrom` for the
card, and `Labels`/`DefaultIndex` for the dropdown. Lemmas state what those
functions guarantee.

Where the code and a natural reading of it differ, the model follows the
code:

- `StartTurn`, `ToThenPhase` and `ToFinallyPhase` increase the phase even
  when the current player is neither 1 nor 2. Only the zone switching is
  guarded by the player number.
- Card activation pays from player 2's piles for every player number other
  than 1.
- Discarding a card clears its `Selected` flag but leaves it on the
  selected-cards list.
- A card that nobody holds and that is not persistent still lands on the
  discard pile when discarded.
- The canvas's two "everything" panels are not in its object list, so
  switching every listed object off leaves them as they are.

## Model

| member | source | states |
|---|---|---|
| Lists.RemoveFirst | DiggingGame/Assets/Scripts/Online/CardScripts/OnlineCardController.cs:263 | `List.Remove`: an absent element leaves the list unchanged; otherwise the list is one shorter and contains no new elements |
| Lists.RemoveFirstAt | DiggingGame/Assets/Scripts/Online/CardScripts/OnlineCardController.cs:263 | removal cuts out exactly the element at the first index of the removed value |
| Lists.RemoveFirstMultiset | DiggingGame/Assets/Scripts/Online/CardScripts/OnlineCardController.cs:565-568 | removal takes away exactly one copy when there is one, and nothing otherwise |
| Lists.RemoveFirstGone | DiggingGame/Assets/Scripts/Online/CardScripts/OnlineCardController.cs:263 | an element held at most once is absent after its removal |
| Lists.RemoveFirstAfterAdd | DiggingGame/Assets/Scripts/Online/CardScripts/OnlineCardController.cs:258-263 | adding an absent element and then removing it gives back the original list |
| Decimal.NatToStringRoundTrip | DiggingGame/Assets/Scripts/MenuScripts/OptionsMenu.cs:47 | the decimal rendering of a natural number is a non-empty digit string that parses back to the number |
| Decimal.IntToStringRoundTrip | DiggingGame/Assets/Scripts/MenuScripts/OptionsMenu.cs:47 | the rendering of any integer parses back to it and contains no space |
| Options.SizeFromLabel | DiggingGame/Assets/Scripts/MenuScripts/OptionsMenu.cs:47 | two resolutions with the same "w x h" label have the same width and the same height |
| Options.SameLabelIffSameSize | DiggingGame/Assets/Scripts/MenuScripts/OptionsMenu.cs:47 | two resolutions share a label exactly when they have the same size: distinct sizes get distinct labels, and the modes of one size at different refresh rates share one |
| Options.DefaultIndex | DiggingGame/Assets/Scripts/MenuScripts/OptionsMenu.cs:44-54 | the preselected index is non-negative, and inside the list when the list is non-empty |
| Options.DefaultIndexIsLastPreferred | DiggingGame/Assets/Scripts/MenuScripts/OptionsMenu.cs:44-54 | the preselection is the last 1920x1080 entry when one exists, and 0 otherwise |
| Options.PrefixStep | DiggingGame/Assets/Scripts/MenuScripts/OptionsMenu.cs:45-54 | one more loop iteration appends that resolution's label, and moves the preselection to it exactly when it is 1920x1080 |
| Options.ResolutionOptions | DiggingGame/Assets/Scripts/MenuScripts/OptionsMenu.cs:43-54 | one option per resolution in order, each its "w x h" label, so the options are `Labels` of the list; the index is the last 1920x1080 entry, or 0 when there is none, which is `DefaultIndex` |
| Options.OptionsMenu.constructor | DiggingGame/Assets/Scripts/MenuScripts/OptionsMenu.cs:20-21 | a fresh menu has recorded volume 0 and is not muted |
| Options.OptionsMenu.PrepareResolutions | DiggingGame/Assets/Scripts/MenuScripts/OptionsMenu.cs:39-59 | stores the screen's resolutions; the dropdown holds exactly `Labels` of them and preselects `DefaultIndex` of them, whose meaning `DefaultIndex` and `DefaultIndexIsLastPreferred` state |
| Options.OptionsMenu.SetMusicVolume | DiggingGame/Assets/Scripts/MenuScripts/OptionsMenu.cs:65-68 | the music channel receives the volume |
| Options.OptionsMenu.SetSoundVolume | DiggingGame/Assets/Scripts/MenuScripts/OptionsMenu.cs:74-77 | the sound-effects channel receives the volume |
| Options.OptionsMenu.SetMasterVolume | DiggingGame/Assets/Scripts/MenuScripts/OptionsMenu.cs:83-95 | the volume is always recorded; the master channel gets -80 while muted and the volume otherwise |
| Options.OptionsMenu.SetMuted | DiggingGame/Assets/Scripts/MenuScripts/OptionsMenu.cs:130-142 | muting pins the master channel to -80; unmuting sends the last recorded volume; the flag follows the argument |
| Options.OptionsMenu.SetWeather | DiggingGame/Assets/Scripts/MenuScripts/OptionsMenu.cs:101-105 | the weather option is stored unchanged |
| Options.OptionsMenu.SetHelpToggle | DiggingGame/Assets/Scripts/MenuScripts/OptionsMenu.cs:157-167 | the help flag equals the argument |
| Options.VolumeChosenWhileMuted | DiggingGame/Assets/Scripts/MenuScripts/OptionsMenu.cs:130-142 | a volume chosen while muted is what the master channel carries after unmuting |
| Turns.EndTurnAlternates | DiggingGame/Assets/Scripts/BoardScripts/ExampleCanvasManager.cs:423-450 | ending a turn hands it to the other player, counts one more turn, resets the phase, and starts a new round only after player 2 |
| Turns.PhaseSteps | DiggingGame/Assets/Scripts/BoardScripts/ExampleCanvasManager.cs:160-418 | start turn, "Then" and "Finally" add exactly one to the phase; the menu buttons and back change no counter |
| Turns.RunCounters | DiggingGame/Assets/Scripts/BoardScripts/ExampleCanvasManager.cs:423-450 | over any run of buttons the player stays 1 or 2 and flips with each end of turn; the turn counts the ends of turn; the round grows once per two of them |
| Turns.UnknownPlayerShowsNothing | DiggingGame/Assets/Scripts/BoardScripts/ExampleCanvasManager.cs:160-450 | with a player number other than 1 or 2, every button leaves all objects off and only the phase buttons change a counter |
| Turns.BackReturnsToPhaseMenu | DiggingGame/Assets/Scripts/BoardScripts/ExampleCanvasManager.cs:386-418 | back shows the "Then" menu in phase 2, the "Finally" menu in phase 3, and nothing otherwise |
| Turns.ShownBelongsToPlayer | DiggingGame/Assets/Scripts/BoardScripts/ExampleCanvasManager.cs:160-450 | a button shows only the current player's own zones, apart from the start-turn button |
| Turns.ShownAreCanvasObjects | DiggingGame/Assets/Scripts/BoardScripts/ExampleCanvasManager.cs:58-78 | every zone a button shows is in the canvas's object list, so the next button switches it off again |
| Turns.OneMoreBuilding | DiggingGame/Assets/Scripts/BoardScripts/ExampleCanvasManager.cs:96-144 | one more factory draws one more card; one more burrow allows one more activation; one more mine of any kind adds one to the mine count; the other numbers stay |
| Turns.CardsToDraw | DiggingGame/Assets/Scripts/BoardScripts/ExampleCanvasManager.cs:429-439 | the end-of-turn draw is the base draw plus the player's built factories (slot 0); its growth is stated in `OneMoreBuilding` |
| Turns.ActivationLimit | DiggingGame/Assets/Scripts/BoardScripts/ExampleCanvasManager.cs:115-134 | the activation limit shown is the base allowance plus the player's built burrows (slot 1); its growth is stated in `OneMoreBuilding` |
| Turns.MineCount | DiggingGame/Assets/Scripts/BoardScripts/ExampleCanvasManager.cs:109-128 | the mine count shown is the sum of building slots 2 to 4; its growth is stated in `OneMoreBuilding` |
| Turns.ActionManager.constructor | DiggingGame/Assets/Scripts/BoardScripts/ExampleCanvasManager.cs:49 | the given starting player opens turn 1 of round 1 in phase 0; no building is built yet, the starting values the online action manager sets in `PrepareStartingValues` (Online/Board Scripts/OnlineActionManager.cs, lines 90-93) |
| Turns.CanvasManager.constructor | DiggingGame/Assets/Scripts/BoardScripts/ExampleCanvasManager.cs:83-91 | after start-up the object list is complete and only the start-turn button is on |
| Turns.CanvasManager.AssignToList | DiggingGame/Assets/Scripts/BoardScripts/ExampleCanvasManager.cs:58-78 | appends the start-turn button, then both players' primary and secondary zones, in array order |
| Turns.CanvasManager.DisableObjects | DiggingGame/Assets/Scripts/BoardScripts/ExampleCanvasManager.cs:149-155 | an object is on afterwards exactly when it was on before and is not in the list |
| Turns.CanvasManager.StartTurn | DiggingGame/Assets/Scripts/BoardScripts/ExampleCanvasManager.cs:160-179 | the phase goes up by one; only the player's "First" zone is on; that player's panel is shown |
| Turns.CanvasManager.ToThenPhase | DiggingGame/Assets/Scripts/BoardScripts/ExampleCanvasManager.cs:184-201 | the phase goes up by one; exactly the player's "Then" zone and "Then" actions are on |
| Turns.CanvasManager.Dig | DiggingGame/Assets/Scripts/BoardScripts/ExampleCanvasManager.cs:216-232 | exactly the player's "Then" zone and dig menu are on; no counter changes |
| Turns.CanvasManager.Build | DiggingGame/Assets/Scripts/BoardScripts/ExampleCanvasManager.cs:249-265 | exactly the player's "Then" zone and build menu are on; no counter changes |
| Turns.CanvasManager.OpenMineMenu | DiggingGame/Assets/Scripts/BoardScripts/ExampleCanvasManager.cs:303-319 | exactly the player's "Then" zone and mine menu are on; no counter changes |
| Turns.CanvasManager.ShowThenMenu | DiggingGame/Assets/Scripts/BoardScripts/ExampleCanvasManager.cs:216-232 | exactly the player's "Then" zone and the requested sub-menu are on |
| Turns.CanvasManager.ToFinallyPhase | DiggingGame/Assets/Scripts/BoardScripts/ExampleCanvasManager.cs:335-352 | the phase goes up by one; exactly the player's "Finally" zone and "Finally" actions are on |
| Turns.CanvasManager.ActivateMenu | DiggingGame/Assets/Scripts/BoardScripts/ExampleCanvasManager.cs:357-373 | exactly the player's "Finally" zone and activation menu are on; no counter changes |
| Turns.CanvasManager.Back | DiggingGame/Assets/Scripts/BoardScripts/ExampleCanvasManager.cs:386-418 | the zones of the phase in progress are on, and no counter changes |
| Turns.CanvasManager.EndTurn | DiggingGame/Assets/Scripts/BoardScripts/ExampleCanvasManager.cs:423-450 | the counters advance as in `Advance`; only the start-turn button is on; the player's panel is hidden; the draw is `CardDraw` plus that player's factories |
| Cards.Pay | DiggingGame/Assets/Scripts/Online/CardScripts/OnlineCardController.cs:291-293 | each refined pile loses exactly the card's cost of its kind; gold is untouched |
| Cards.Collect | DiggingGame/Assets/Scripts/Online/CardScripts/OnlineCardController.cs:294-296 | each supply pile gains exactly the card's cost of its kind |
| Cards.AffordableIffNoDebt | DiggingGame/Assets/Scripts/Online/CardScripts/OnlineCardController.cs:287 | the cost check passes exactly when paying leaves grass, dirt and stone non-negative |
| Cards.PaymentConserved | DiggingGame/Assets/Scripts/Online/CardScripts/OnlineCardController.cs:291-296 | what leaves a refined pile arrives in the matching supply pile |
| Cards.ToggleSelectionTwice | DiggingGame/Assets/Scripts/Online/CardScripts/OnlineCardController.cs:252-266 | two selections restore the flag, and the list (exactly, or up to order when the card was listed) |
| Cards.ToggleKeepsFlagInStep | DiggingGame/Assets/Scripts/Online/CardScripts/OnlineCardController.cs:252-266 | if the card is selected exactly when it is listed once, a selection keeps that so |
| Cards.PayFromConserves | DiggingGame/Assets/Scripts/Online/CardScripts/OnlineCardController.cs:285-351 | per kind, both players' piles and the supply together keep their total; the other player's piles are untouched; an affordable payment leaves no debt |
| Cards.ActivationsStayNonNegative | DiggingGame/Assets/Scripts/Online/CardScripts/OnlineCardController.cs:278-321 | activation succeeds exactly when an activation is left and the cost is covered, so a non-negative allowance stays non-negative |
| Cards.DiscardMovesHandCard | DiggingGame/Assets/Scripts/Online/CardScripts/OnlineCardController.cs:404-442 | a discard from player p's hand frees exactly its slot and moves the card from that hand to the discard pile; nothing else changes |
| Cards.DiscardMovesPersistentCard | DiggingGame/Assets/Scripts/Online/CardScripts/OnlineCardController.cs:444-470 | a discard from player p's persistent area frees exactly its slot and moves the card from that area to the discard pile; nothing else changes |
| Cards.DiscardUnheldCard | DiggingGame/Assets/Scripts/Online/CardScripts/OnlineCardController.cs:404-442 | a card held by nobody frees nothing but still lands on the discard pile |
| Cards.DiscardedCardIsSpent | DiggingGame/Assets/Scripts/Online/CardScripts/OnlineCardController.cs:459-480 | a discarded card cannot be selected, discarded or activated, and a second discard would free no slot |
| Cards.OnlineActionManager.constructor | DiggingGame/Assets/Scripts/Online/CardScripts/OnlineCardController.cs:34 | the refined piles of both players and the supply start as fresh, distinct arrays of four zeros (the piles declared at lines 24-27 of Online/Board Scripts/OnlineActionManager.cs) |
| Cards.OnlineCardManager.constructor | DiggingGame/Assets/Scripts/Online/CardScripts/OnlineCardController.cs:33 | the selected list, discard pile and both hands start empty; every hand slot of both players starts open; the allowance is the given one, as the pass-and-play card manager sets them up (Pass & Play/CardScripts/CardManager.cs, lines 23-29 and 78-88) |
| Cards.OnlinePersistentCardManager.constructor | DiggingGame/Assets/Scripts/Online/CardScripts/OnlineCardController.cs:38 | both persistent areas start empty; each player's area has its own number of slots, all open, as the pass-and-play persistent manager sizes each from its own position list (Pass & Play/CardScripts/PersistentCardManager.cs, lines 24-27 and 62-71) |
| Cards.ActivationStopped | DiggingGame/Assets/Scripts/Online/CardScripts/OnlineCardController.cs:323 | after an activation, a card in the paying player's hand (player 1's for player 1, player 2's otherwise) can no longer be activated; any other card keeps its flag, as `StopCardActivating` does in the pass-and-play card manager (Pass & Play/CardScripts/CardManager.cs, lines 475-491) |
| Cards.OnlineCardController.constructor | DiggingGame/Assets/Scripts/Online/CardScripts/OnlineCardController.cs:68-79 | a spawned card is held by nobody, has no flag set and is not enlarged |
| Cards.OnlineCardController.SelectCard | DiggingGame/Assets/Scripts/Online/CardScripts/OnlineCardController.cs:252-266 | an unselected card is appended to the selected list and marked; a selected one is removed and unmarked |
| Cards.OnlineCardController.MaximizeCard | DiggingGame/Assets/Scripts/Online/CardScripts/OnlineCardController.cs:490-502 | afterwards the card is enlarged with exactly one copy |
| Cards.OnlineCardController.DemaximizeCard | DiggingGame/Assets/Scripts/Online/CardScripts/OnlineCardController.cs:507-518 | afterwards the card is not enlarged and no copy exists |
| Cards.OnlineCardController.AddToDiscarded | DiggingGame/Assets/Scripts/Online/CardScripts/OnlineCardController.cs:539-542 | the card is appended to the discard pile |
| Cards.OnlineCardController.RemoveCard | DiggingGame/Assets/Scripts/Online/CardScripts/OnlineCardController.cs:562-573 | the card leaves the named player's hand; other player numbers change nothing |
| Cards.OnlineCardController.RemoveFromPersistent | DiggingGame/Assets/Scripts/Online/CardScripts/OnlineCardController.cs:594-607 | the named player's persistent slot is free and the card has left that list; other numbers change nothing |
| Cards.OnlineCardController.ReleaseHandSlot | DiggingGame/Assets/Scripts/Online/CardScripts/OnlineCardController.cs:406-431 | the holder's hand slot is free and the card has left that hand |
| Cards.OnlineCardController.ReleasePersistentSlot | DiggingGame/Assets/Scripts/Online/CardScripts/OnlineCardController.cs:446-455 | the owner's persistent slot is free and the card has left that area |
| Cards.OnlineCardController.ReleaseSlot | DiggingGame/Assets/Scripts/Online/CardScripts/OnlineCardController.cs:404-455 | the slot the card held is released, as `Released` |
| Cards.OnlineCardController.ClearFlags | DiggingGame/Assets/Scripts/Online/CardScripts/OnlineCardController.cs:459-465 | the card is held by nobody and every selection, activation and persistence flag is cleared |
| Cards.OnlineCardController.ToDiscard | DiggingGame/Assets/Scripts/Online/CardScripts/OnlineCardController.cs:400-480 | the card and the shared tables become `DiscardedCard` and `DiscardedTables` of their old values; no enlarged copy is left |
| Cards.OnlineCardController.FinishDiscard | DiggingGame/Assets/Scripts/Online/CardScripts/OnlineCardController.cs:482-483 | after the wait the animation flag is off and the body hidden; nothing else changes |
| Cards.OnlineCardController.PayCost | DiggingGame/Assets/Scripts/Online/CardScripts/OnlineCardController.cs:291-296 | the piles become `PayFrom` of their old values |
| Cards.DiscardIgnoresStop | DiggingGame/Assets/Scripts/Online/CardScripts/OnlineCardController.cs:321-330 | a discard ends with the same card and tables whether or not the stop on further activations ran first |
| Cards.OnlineCardController.UseActivation | DiggingGame/Assets/Scripts/Online/CardScripts/OnlineCardController.cs:321-323 | one activation is used up, and the card becomes `ActivationStopped` of its old state: its activation flag is cleared when it sits in the current player's hand |
| Cards.OnlineCardController.Spend | DiggingGame/Assets/Scripts/Online/CardScripts/OnlineCardController.cs:289-330 | payment and one activation used up; a non-persistent card is discarded; a persistent card stays where it is and is stopped as in `ActivationStopped` |
| Cards.OnlineCardController.ActivateCard | DiggingGame/Assets/Scripts/Online/CardScripts/OnlineCardController.cs:271-395 | the outcome is `Outcome` of the old allowance and piles; only a success pays, uses an activation, discards a non-persistent card and stops a persistent one as in `ActivationStopped`; a refusal changes nothing |
| Cards.OnlineCardController.ActivateIfAllowed | DiggingGame/Assets/Scripts/Online/CardScripts/OnlineCardController.cs:229-235 | a card that can be activated gets exactly the effects `ActivateCard` states; any other card changes nothing |
| Cards.OnlineCardController.SelectThenActivate | DiggingGame/Assets/Scripts/Online/CardScripts/OnlineCardController.cs:221-235 | the card is selected or deselected as `ToggleSelection` says if it can be, and the activation step then runs from that state |
| Cards.OnlineCardController.Click | DiggingGame/Assets/Scripts/Online/CardScripts/OnlineCardController.cs:208-235 | a discardable card is discarded; a persistent card does nothing more; otherwise selection toggles if allowed, then activation runs if allowed, with the effects of `ActivateCard`; the enlarged copy is gone only after a discard, whether by the click or by the activation |
| Cards.OnlineCardController.OnMouseOver | DiggingGame/Assets/Scripts/Online/CardScripts/OnlineCardController.cs:191-236 | the right button enlarges or shrinks; during a discard or without a left click nothing else changes; after a left click outside a discard the effects are those of `Click`, starting from the enlargement the right button left |

## Left out

- Networking: the remote-call dispatch and any agreement between clients. Each remote body runs at once on one client. The update `CallDiscardedPC` sends goes only to the other clients, so it has no local effect and is not modelled.
- Timing: the coroutine wait between the two halves of a discard. `ToDiscard` and `FinishDiscard` are separate methods, and nothing models the frames in between.
- Engine work: frame-by-frame card motion, hover visuals, sounds, animations, colours, text rendering and `Instantiate`/`Destroy`. The enlarged copy is modelled as a counter.
- Opaque action-manager calls: `RefineTiles`, `ActivateMines`, `DrawCards` (only the requested count is returned) and `DiscardCards`. The same holds for the canvas buttons that only forward to such a call: `DigTile` calls `CollectTile`, `Retrieve` calls `UseGold`, and `BuildFactory`, `BuildBurrow` and `BuildMine` call `BuildBuilding`. The canvas's action manager (`ActionManager.cs`) is not part of this model. Its starting values follow the online action manager. The button `Move` only writes a log line and refreshes the text, and `ActivateCard` only writes a log line, so neither is modelled. `CallUpdatePieces` and `SupplyPileRPC` are modelled as plain additions to the pile arrays.
- Cards.OnlineCardController.UseActivation: the card manager's `StopCardActivating` clears the activation flag of every card in the paying player's hand. The model has one card in view, so it states only that card's own flag, as `ActivationStopped`. The online card manager is not part of this model; its call is taken to behave like the pass-and-play `StopCardActivating` it mirrors.
- Cards.OnlineCardController.Spend: states the stop on further activations for this card only, as `UseActivation` does; the flags of the other cards in the hand are outside the model.
- Cards.OnlineCardController.ActivateCard: after a successful activation, states the stop for this card only, as `Spend` does.
- Cards.OnlineCardController.Click: after a successful activation, states the stop for this card only, as `Spend` does.
- Card side effects: `CallNormalCards`/`CallGoldCards`, `CallPileText`, the card-effect coroutines, the statistics, and the weather the card sets. The code behind them is not part of this model.
- Options.Resolution: the refresh rate is carried but the dropdown ignores it, as the code does. The screen lists a size once per refresh rate, so the same label can appear several times, and the preselection is the last of the 1920x1080 modes.
- Options: `SetQuality`, `SetResolution` and `SetFullscreen` only forward to engine settings. The mixer is modelled as the last value sent to each channel.
- `UpdateAllText`: only the numbers it shows are modelled, as `CardsToDraw`, `ActivationLimit` and `MineCount`. The text itself is not.
- Cards.OnlineCardController.ToDiscard, and likewise `RemoveFromPersistent`, `ReleaseHandSlot`, `ReleasePersistentSlot`, `ReleaseSlot`, `Spend`, `ActivateCard`, `Click` and `OnMouseOver`: each requires the card's hand and persistent slot indices to lie inside their arrays (`SlotsInRange`). `ActivateCard` requires this even when it refuses. The code would throw an out-of-range exception otherwise. The game keeps these indices in range, because the card and persistent managers assign them from their own slot arrays.
- Cards.OnlineCardController.OnMouseOver: after a successful activation, states the stop for this card only, as `Spend` does.
- Scene lookup by type or tag, and `GetCardID`, `Start`, `EnableReadyToMove`, `FixedUpdate` and the mouse enter/exit handlers, are not modelled.

=== FILE: cards.dfy ===
/** The online card controller's bookkeeping: selecting a card, activating it
    against the current player's refined piles, discarding it from a hand or
    from the persistent area, and keeping at most one maximized copy.

    Each remote call is modelled as its body applied at once on the one client
    in view. A card's scene object is stood for by a `CardId`. */
module Cards {
  import opened Lists

  type CardId = int

  /** Pile slots: grass, dirt, stone and gold. */
  const GrassPile := 0
  const DirtPile := 1
  const StonePile := 2
  const PileKinds := 4

  /** What a card costs to activate, in refined grass, dirt and stone. */
  datatype Cost = Cost(grass: int, dirt: int, stone: int)

  /** The cost of a card in pile slot `k` (gold is never charged). */
  function CostAt(c: Cost, k: int): int {
    if k == GrassPile then c.grass
    else if k == DirtPile then c.dirt
    else if k == StonePile then c.stone
    else 0
  }

  /** The component-wise check activation makes against the refined piles. */
  predicate Affordable(refined: seq<int>, c: Cost)
    requires |refined| == PileKinds
  {
    refined[GrassPile] >= c.grass && refined[DirtPile] >= c.dirt && refined[StonePile] >= c.stone
  }

  /** The refined piles after paying for a card. */
  function Pay(refined: seq<int>, c: Cost): (r: seq<int>)
    requires |refined| == PileKinds
    ensures |r| == PileKinds
    ensures forall k :: 0 <= k < PileKinds ==> r[k] == refined[k] - CostAt(c, k)
  {
    refined[GrassPile := refined[GrassPile] - c.grass]
           [DirtPile := refined[DirtPile] - c.dirt]
           [StonePile := refined[StonePile] - c.stone]
  }

  /** The supply after receiving a card's payment. */
  function Collect(supply: seq<int>, c: Cost): (r: seq<int>)
    requires |supply| == PileKinds
    ensures |r| == PileKinds
    ensures forall k :: 0 <= k < PileKinds ==> r[k] == supply[k] + CostAt(c, k)
  {
    supply[GrassPile := supply[GrassPile] + c.grass]
          [DirtPile := supply[DirtPile] + c.dirt]
          [StonePile := supply[StonePile] + c.stone]
  }

  /** A card can be paid for exactly when paying leaves none of the three
      charged piles below zero. */
  lemma AffordableIffNoDebt(refined: seq<int>, c: Cost)
    requires |refined| == PileKinds
    ensures Affordable(refined, c) <==> forall k :: 0 <= k < StonePile + 1 ==> Pay(refined, c)[k] >= 0
  {
    if forall k :: 0 <= k < StonePile + 1 ==> Pay(refined, c)[k] >= 0 {
      assert Pay(refined, c)[GrassPile] >= 0 && Pay(refined, c)[DirtPile] >= 0 && Pay(refined, c)[StonePile] >= 0;
    }
  }

  /** Activation moves pieces and creates none: what leaves a player's pile
      arrives in the supply, slot by slot. */
  lemma PaymentConserved(refined: seq<int>, supply: seq<int>, c: Cost)
    requires |refined| == PileKinds && |supply| == PileKinds
    ensures forall k :: 0 <= k < PileKinds ==>
      Pay(refined, c)[k] + Collect(supply, c)[k] == refined[k] + supply[k]
  {
  }

  /** The selection flag and the selected-cards list after a click that
      selects or deselects a card. */
  function ToggleSelection(selected: bool, cards: seq<CardId>, body: CardId): (bool, seq<CardId>) {
    if selected then (false, RemoveFirst(cards, body)) else (true, cards + [body])
  }

  /** Two clicks restore the flag. Starting unselected and absent, they give
      back the very list; starting selected and present, the same cards (the
      card moves to the end). */
  lemma ToggleSelectionTwice(selected: bool, cards: seq<CardId>, body: CardId)
    ensures var (s1, l1) := ToggleSelection(selected, cards, body);
      var (s2, l2) := ToggleSelection(s1, l1, body);
      && s2 == selected
      && (!selected && body !in cards ==> l2 == cards)
      && (selected && body in cards ==> multiset(l2) == multiset(cards))
  {
    if selected {
      RemoveFirstMultiset(cards, body);
    } else if body !in cards {
      RemoveFirstAfterAdd(cards, body);
    }
  }

  /** A click keeps the flag in step with the list: if the card is selected
      exactly when it is listed (at most once), that stays so. */
  lemma ToggleKeepsFlagInStep(selected: bool, cards: seq<CardId>, body: CardId)
    requires selected <==> body in cards
    requires multiset(cards)[body] <= 1
    ensures var (s, l) := ToggleSelection(selected, cards, body);
      (s <==> body in l) && multiset(l)[body] <= 1
  {
    RemoveFirstMultiset(cards, body);
    if selected {
      RemoveFirstGone(cards, body);
    } else {
      assert multiset(cards + [body]) == multiset(cards) + multiset{body};
    }
  }

  /** The refined piles of both players and the common supply, one slot
      per piece kind. */
  datatype Piles = Piles(p1Refined: seq<int>, p2Refined: seq<int>, supply: seq<int>)

  predicate PilesValid(p: Piles) {
    |p.p1Refined| == PileKinds && |p.p2Refined| == PileKinds && |p.supply| == PileKinds
  }

  /** The refined piles a card is paid from: player 1's when player 1 is to
      move, player 2's for any other player number. */
  function Paying(p: Piles, player: int): seq<int> {
    if player == 1 then p.p1Refined else p.p2Refined
  }

  datatype Activation = LimitReached | NotEnoughPieces | Activated

  /** How an activation attempt ends: refused once no activation is left,
      refused when the paying piles cannot cover the cost, else done. */
  function Outcome(allowed: int, player: int, p: Piles, c: Cost): Activation
    requires PilesValid(p)
  {
    if allowed == 0 then LimitReached
    else if Affordable(Paying(p, player), c) then Activated
    else NotEnoughPieces
  }

  /** The piles after an activation: the cost leaves the paying piles and
      arrives in the supply. */
  function PayFrom(p: Piles, player: int, c: Cost): Piles
    requires PilesValid(p)
  {
    if player == 1 then p.(p1Refined := Pay(p.p1Refined, c), supply := Collect(p.supply, c))
    else p.(p2Refined := Pay(p.p2Refined, c), supply := Collect(p.supply, c))
  }

  /** Activation conserves pieces: per kind, the two refined piles and the
      supply hold as much as before; the other player's piles are untouched,
      and after a successful check the paying piles stay non-negative. */
  lemma PayFromConserves(p: Piles, player: int, c: Cost)
    requires PilesValid(p)
    ensures var q := PayFrom(p, player, c);
      && PilesValid(q)
      && (forall k :: 0 <= k < PileKinds ==>
            q.p1Refined[k] + q.p2Refined[k] + q.supply[k] == p.p1Refined[k] + p.p2Refined[k] + p.supply[k])
      && (player == 1 ==> q.p2Refined == p.p2Refined)
      && (player != 1 ==> q.p1Refined == p.p1Refined)
      && (Affordable(Paying(p, player), c) ==> forall k :: 0 <= k <= StonePile ==> Paying(q, player)[k] >= 0)
  {
    PaymentConserved(Paying(p, player), p.supply, c);
    AffordableIffNoDebt(Paying(p, player), c);
  }

  /** An activation uses one of the allowed activations and is refused at
      zero, so a non-negative allowance stays non-negative. */
  lemma ActivationsStayNonNegative(allowed: int, player: int, p: Piles, c: Cost)
    requires PilesValid(p) && allowed >= 0
    ensures Outcome(allowed, player, p, c) == Activated ==> allowed - 1 >= 0
    ensures Outcome(allowed, player, p, c) == Activated <==> allowed != 0 && Affordable(Paying(p, player), c)
  {
  }

  /** What a card records about itself. */
  datatype CardState = CardState(
    heldBy: int, handPosition: int, pHandPosition: int,
    selected: bool, canBeSelected: bool, canBeDiscarded: bool, canBeActivated: bool,
    madePersistentP1: bool, madePersistentP2: bool, gettingDiscarded: bool, bodyActive: bool)

  /** Discarding frees a slot of player `p`'s hand. */
  predicate FreesHandSlot(c: CardState, p: int) {
    !c.madePersistentP1 && !c.madePersistentP2 && c.heldBy == p
  }

  /** Discarding frees a slot of player `p`'s persistent area. */
  predicate FreesPersistentSlot(c: CardState, p: int) {
    if p == 1 then c.madePersistentP1 else p == 2 && !c.madePersistentP1 && c.madePersistentP2
  }

  /** The shared card lists and slot tables a card's discard reads and
      writes. */
  datatype Tables = Tables(
    selectedCards: seq<CardId>, dPile: seq<CardId>,
    p1Hand: seq<CardId>, p2Hand: seq<CardId>, p1OpenHand: seq<bool>, p2OpenHand: seq<bool>,
    p1Persistent: seq<CardId>, p2Persistent: seq<CardId>, p1OpenPSlots: seq<bool>, p2OpenPSlots: seq<bool>)

  function Hand(t: Tables, p: int): seq<CardId> {
    if p == 1 then t.p1Hand else t.p2Hand
  }

  function OpenHand(t: Tables, p: int): seq<bool> {
    if p == 1 then t.p1OpenHand else t.p2OpenHand
  }

  function Persistent(t: Tables, p: int): seq<CardId> {
    if p == 1 then t.p1Persistent else t.p2Persistent
  }

  function OpenPSlots(t: Tables, p: int): seq<bool> {
    if p == 1 then t.p1OpenPSlots else t.p2OpenPSlots
  }

  /** The slot a discard frees lies inside its table. */
  predicate SlotsInRange(c: CardState, t: Tables) {
    && (FreesHandSlot(c, 1) ==> 0 <= c.handPosition < |t.p1OpenHand|)
    && (FreesHandSlot(c, 2) ==> 0 <= c.handPosition < |t.p2OpenHand|)
    && (FreesPersistentSlot(c, 1) ==> 0 <= c.pHandPosition < |t.p1OpenPSlots|)
    && (FreesPersistentSlot(c, 2) ==> 0 <= c.pHandPosition < |t.p2OpenPSlots|)
  }

  function Free(open: seq<bool>, frees: bool, position: int): seq<bool>
    requires frees ==> 0 <= position < |open|
  {
    if frees then open[position := true] else open
  }

  function Leave(cards: seq<CardId>, leaves: bool, body: CardId): seq<CardId> {
    if leaves then RemoveFirst(cards, body) else cards
  }

  /** The tables once the card has given up the slot it held, in a hand or
      in a persistent area. */
  function Released(c: CardState, t: Tables, body: CardId): Tables
    requires SlotsInRange(c, t)
  {
    t.(p1OpenHand := Free(t.p1OpenHand, FreesHandSlot(c, 1), c.handPosition),
       p2OpenHand := Free(t.p2OpenHand, FreesHandSlot(c, 2), c.handPosition),
       p1Hand := Leave(t.p1Hand, FreesHandSlot(c, 1), body),
       p2Hand := Leave(t.p2Hand, FreesHandSlot(c, 2), body),
       p1OpenPSlots := Free(t.p1OpenPSlots, FreesPersistentSlot(c, 1), c.pHandPosition),
       p2OpenPSlots := Free(t.p2OpenPSlots, FreesPersistentSlot(c, 2), c.pHandPosition),
       p1Persistent := Leave(t.p1Persistent, FreesPersistentSlot(c, 1), body),
       p2Persistent := Leave(t.p2Persistent, FreesPersistentSlot(c, 2), body))
  }

  /** The tables after a discard: the slot is released and the card is on
      the discard pile. The selected-cards list is left as it was. */
  function DiscardedTables(c: CardState, t: Tables, body: CardId): Tables
    requires SlotsInRange(c, t)
  {
    Released(c, t, body).(dPile := t.dPile + [body])
  }

  /** After an activation the card manager stops every card in the paying
      player's hand (player 1's for player 1, player 2's otherwise) from being
      activated again; of that, the model keeps this card's own flag. */
  function ActivationStopped(c: CardState, t: Tables, body: CardId, player: int): CardState {
    c.(canBeActivated := c.canBeActivated && body !in Hand(t, player))
  }

  /** A discard clears the activation flag and releases by holder and
      persistence alone, so it ends the same whether or not the card was
      stopped first. */
  lemma DiscardIgnoresStop(c: CardState, t: Tables, body: CardId, player: int)
    requires SlotsInRange(c, t)
    ensures SlotsInRange(ActivationStopped(c, t, body, player), t)
    ensures DiscardedCard(ActivationStopped(c, t, body, player)) == DiscardedCard(c)
    ensures DiscardedTables(ActivationStopped(c, t, body, player), t, body) == DiscardedTables(c, t, body)
  {
  }

  /** The card after a discard: held by nobody, every flag cleared, the
      discard animation running. */
  function DiscardedCard(c: CardState): CardState {
    c.(heldBy := 0, selected := false, canBeSelected := false, canBeDiscarded := false,
       canBeActivated := false, madePersistentP1 := false, madePersistentP2 := false,
       gettingDiscarded := true)
  }

  /** Discarding a card from player `p`'s hand moves it from that hand to
      the discard pile and frees exactly its slot; the other player's hand
      and both persistent areas are untouched. */
  lemma DiscardMovesHandCard(c: CardState, t: Tables, body: CardId, p: int)
    requires (p == 1 || p == 2) && FreesHandSlot(c, p) && SlotsInRange(c, t)
    ensures var r := DiscardedTables(c, t, body);
      && multiset(Hand(r, p)) + multiset(r.dPile) == multiset(Hand(t, p)) + multiset(t.dPile) + (if body in Hand(t, p) then multiset{} else multiset{body})
      && |OpenHand(r, p)| == |OpenHand(t, p)| && OpenHand(r, p)[c.handPosition]
      && (forall i :: 0 <= i < |OpenHand(t, p)| && i != c.handPosition ==> OpenHand(r, p)[i] == OpenHand(t, p)[i])
      && Hand(r, 3 - p) == Hand(t, 3 - p) && OpenHand(r, 3 - p) == OpenHand(t, 3 - p)
      && r.p1Persistent == t.p1Persistent && r.p2Persistent == t.p2Persistent
      && r.p1OpenPSlots == t.p1OpenPSlots && r.p2OpenPSlots == t.p2OpenPSlots
      && r.selectedCards == t.selectedCards
  {
    RemoveFirstMultiset(Hand(t, p), body);
    var r := DiscardedTables(c, t, body);
    assert multiset(r.dPile) == multiset(t.dPile) + multiset{body};
  }

  /** Discarding a card from player `p`'s persistent area moves it from that
      area to the discard pile and frees exactly its slot; both hands and the
      other persistent area are untouched. */
  lemma DiscardMovesPersistentCard(c: CardState, t: Tables, body: CardId, p: int)
    requires (p == 1 || p == 2) && FreesPersistentSlot(c, p) && SlotsInRange(c, t)
    ensures var r := DiscardedTables(c, t, body);
      && multiset(Persistent(r, p)) + multiset(r.dPile) == multiset(Persistent(t, p)) + multiset(t.dPile) + (if body in Persistent(t, p) then multiset{} else multiset{body})
      && |OpenPSlots(r, p)| == |OpenPSlots(t, p)| && OpenPSlots(r, p)[c.pHandPosition]
      && (forall i :: 0 <= i < |OpenPSlots(t, p)| && i != c.pHandPosition ==> OpenPSlots(r, p)[i] == OpenPSlots(t, p)[i])
      && Persistent(r, 3 - p) == Persistent(t, 3 - p) && OpenPSlots(r, 3 - p) == OpenPSlots(t, 3 - p)
      && r.p1Hand == t.p1Hand && r.p2Hand == t.p2Hand
      && r.p1OpenHand == t.p1OpenHand && r.p2OpenHand == t.p2OpenHand
      && r.selectedCards == t.selectedCards
  {
    RemoveFirstMultiset(Persistent(t, p), body);
    var r := DiscardedTables(c, t, body);
    assert multiset(r.dPile) == multiset(t.dPile) + multiset{body};
  }

  /** A card held by nobody and not persistent frees nothing when discarded,
      yet still lands on the discard pile. */
  lemma DiscardUnheldCard(c: CardState, t: Tables, body: CardId)
    requires c.heldBy != 1 && c.heldBy != 2 && !c.madePersistentP1 && !c.madePersistentP2
    ensures DiscardedTables(c, t, body) == t.(dPile := t.dPile + [body])
  {
  }

  /** A discarded card is held by nobody and cannot be used any more; a
      second discard would free nothing. */
  lemma DiscardedCardIsSpent(c: CardState, t: Tables, body: CardId)
    ensures var d := DiscardedCard(c);
      && !d.canBeSelected && !d.canBeDiscarded && !d.canBeActivated && d.gettingDiscarded
      && SlotsInRange(d, t) && Released(d, t, body) == t
  {
  }

  /** The mouse buttons as seen during one frame with the pointer over the
      card. */
  datatype MouseInput = MouseInput(rightHeld: bool, rightReleased: bool, leftPressed: bool)

  /** Whether an enlarged copy is shown after the right button has been
      looked at: held enlarges, released shrinks, the release checked last. */
  function Zoomed(was: bool, input: MouseInput): bool {
    if input.rightReleased then false else if input.rightHeld then true else was
  }
  /** The part of the online action manager a card touches: whose turn it is
      and the refined and supply piles. */
  class OnlineActionManager {
    var CurrentPlayer: int
    const P1RefinedPile: array<int>
    const P2RefinedPile: array<int>
    const SupplyPile: array<int>

    ghost predicate Valid() {
      && P1RefinedPile.Length == PileKinds && P2RefinedPile.Length == PileKinds
      && SupplyPile.Length == PileKinds
      && P1RefinedPile != P2RefinedPile && P1RefinedPile != SupplyPile && P2RefinedPile != SupplyPile
    }

    constructor (player: int)
      ensures Valid() && CurrentPlayer == player
      ensures fresh(P1RefinedPile) && fresh(P2RefinedPile) && fresh(SupplyPile)
      ensures P1RefinedPile[..] == P2RefinedPile[..] == SupplyPile[..] == seq(PileKinds, _ => 0)
    {
      CurrentPlayer := player;
      P1RefinedPile := new int[PileKinds](_ => 0);
      P2RefinedPile := new int[PileKinds](_ => 0);
      SupplyPile := new int[PileKinds](_ => 0);
    }
  }

  /** The part of the online card manager a card touches. */
  class OnlineCardManager {
    var SelectedCards: seq<CardId>
    var DPile: seq<CardId>
    var P1Hand: seq<CardId>
    var P2Hand: seq<CardId>
    const P1OpenHandPositions: array<bool>
    const P2OpenHandPositions: array<bool>
    var AllowedActivations: int

    ghost predicate Valid() {
      P1OpenHandPositions != P2OpenHandPositions
    }

    constructor (handSlots: nat, allowed: int)
      ensures Valid()
      ensures SelectedCards == DPile == P1Hand == P2Hand == []
      ensures P1OpenHandPositions.Length == P2OpenHandPositions.Length == handSlots
      ensures AllowedActivations == allowed
      ensures fresh(P1OpenHandPositions) && fresh(P2OpenHandPositions)
      ensures P1OpenHandPositions[..] == P2OpenHandPositions[..] == seq(handSlots, _ => true)
    {
      SelectedCards, DPile, P1Hand, P2Hand := [], [], [], [];
      P1OpenHandPositions := new bool[handSlots](_ => true);
      P2OpenHandPositions := new bool[handSlots](_ => true);
      AllowedActivations := allowed;
    }
  }

  /** The part of the persistent card manager a card touches. */
  class OnlinePersistentCardManager {
    const P1OpenPCardSlots: array<bool>
    const P2OpenPCardSlots: array<bool>
    var P1PersistentCards: seq<CardId>
    var P2PersistentCards: seq<CardId>

    ghost predicate Valid() {
      P1OpenPCardSlots != P2OpenPCardSlots
    }

    /** Each area has one open slot per position of its own. */
    constructor (p1Slots: nat, p2Slots: nat)
      ensures Valid()
      ensures P1PersistentCards == P2PersistentCards == []
      ensures P1OpenPCardSlots.Length == p1Slots && P2OpenPCardSlots.Length == p2Slots
      ensures fresh(P1OpenPCardSlots) && fresh(P2OpenPCardSlots)
      ensures P1OpenPCardSlots[..] == seq(p1Slots, _ => true) && P2OpenPCardSlots[..] == seq(p2Slots, _ => true)
    {
      P1OpenPCardSlots := new bool[p1Slots](_ => true);
      P2OpenPCardSlots := new bool[p2Slots](_ => true);
      P1PersistentCards, P2PersistentCards := [], [];
    }
  }


  class OnlineCardController {
    /** The card's scene object and the card data it shows. */
    const cardBody: CardId
    const cost: Cost
    const persistent: bool
    const am: OnlineActionManager
    const cm: OnlineCardManager
    const pcm: OnlinePersistentCardManager

    var HandPosition: int
    var PHandPosition: int
    var HeldByPlayer: int
    var CanBeSelected: bool
    var CanBeDiscarded: bool
    var CanBeActivated: bool
    var Selected: bool
    var MadePersistentP1: bool
    var MadePersistentP2: bool
    /** Set while the discard animation plays. */
    var gettingDiscarded: bool
    /** Whether the card's body is shown. */
    var bodyActive: bool
    var currentlyMaximized: bool
    /** How many enlarged copies of this card exist in the scene. */
    var maximizedCopies: nat

    ghost predicate Valid()
      reads this
    {
      && am.Valid() && cm.Valid() && pcm.Valid()
      && cm.P1OpenHandPositions != pcm.P1OpenPCardSlots && cm.P1OpenHandPositions != pcm.P2OpenPCardSlots
      && cm.P2OpenHandPositions != pcm.P1OpenPCardSlots && cm.P2OpenHandPositions != pcm.P2OpenPCardSlots
      && maximizedCopies == (if currentlyMaximized then 1 else 0)
    }

    /** The card's own record. */
    ghost function Card(): CardState
      reads this`HeldByPlayer, this`HandPosition, this`PHandPosition, this`Selected,
        this`CanBeSelected, this`CanBeDiscarded, this`CanBeActivated,
        this`MadePersistentP1, this`MadePersistentP2, this`gettingDiscarded, this`bodyActive
    {
      CardState(HeldByPlayer, HandPosition, PHandPosition, Selected, CanBeSelected, CanBeDiscarded,
        CanBeActivated, MadePersistentP1, MadePersistentP2, gettingDiscarded, bodyActive)
    }

    /** The shared lists and slot tables. */
    ghost function Board(): Tables
      reads cm`SelectedCards, cm`DPile, cm`P1Hand, cm`P2Hand, cm.P1OpenHandPositions, cm.P2OpenHandPositions,
        pcm`P1PersistentCards, pcm`P2PersistentCards, pcm.P1OpenPCardSlots, pcm.P2OpenPCardSlots
    {
      Tables(cm.SelectedCards, cm.DPile, cm.P1Hand, cm.P2Hand,
        cm.P1OpenHandPositions[..], cm.P2OpenHandPositions[..],
        pcm.P1PersistentCards, pcm.P2PersistentCards, pcm.P1OpenPCardSlots[..], pcm.P2OpenPCardSlots[..])
    }

    /** The refined piles and the supply. */
    ghost function Stock(): Piles
      reads am.P1RefinedPile, am.P2RefinedPile, am.SupplyPile
    {
      Piles(am.P1RefinedPile[..], am.P2RefinedPile[..], am.SupplyPile[..])
    }

    /** A card as it is spawned: held by nobody, with no flag set. */
    constructor (body: CardId, c: Cost, isPersistent: bool,
                 actions: OnlineActionManager, cards: OnlineCardManager,
                 persistentCards: OnlinePersistentCardManager)
      requires actions.Valid() && cards.Valid() && persistentCards.Valid()
      requires cards.P1OpenHandPositions != persistentCards.P1OpenPCardSlots
      requires cards.P1OpenHandPositions != persistentCards.P2OpenPCardSlots
      requires cards.P2OpenHandPositions != persistentCards.P1OpenPCardSlots
      requires cards.P2OpenHandPositions != persistentCards.P2OpenPCardSlots
      ensures Valid()
      ensures cardBody == body && cost == c && persistent == isPersistent
      ensures am == actions && cm == cards && pcm == persistentCards
      ensures Card() == CardState(0, 0, 0, false, false, false, false, false, false, false, true)
      ensures !currentlyMaximized
    {
      cardBody, cost, persistent := body, c, isPersistent;
      am, cm, pcm := actions, cards, persistentCards;
      HandPosition, PHandPosition, HeldByPlayer := 0, 0, 0;
      CanBeSelected, CanBeDiscarded, CanBeActivated, Selected := false, false, false, false;
      MadePersistentP1, MadePersistentP2 := false, false;
      gettingDiscarded, bodyActive := false, true;
      currentlyMaximized, maximizedCopies := false, 0;
    }

    /** Selecting an unselected card lists it; selecting a selected card
        takes it off the list. */
    method SelectCard()
      modifies this`Selected, cm`SelectedCards
      ensures (Selected, cm.SelectedCards) == ToggleSelection(old(Selected), old(cm.SelectedCards), cardBody)
    {
      if !Selected {
        cm.SelectedCards := cm.SelectedCards + [cardBody];
        Selected := true;
      } else {
        cm.SelectedCards := RemoveFirst(cm.SelectedCards, cardBody);
        Selected := false;
      }
    }

    /** Enlarges the card unless an enlarged copy is already shown, so there
        is never more than one. */
    method MaximizeCard()
      requires Valid()
      modifies this`currentlyMaximized, this`maximizedCopies
      ensures Valid() && currentlyMaximized && maximizedCopies == 1
    {
      if currentlyMaximized {
        return;
      }
      maximizedCopies := maximizedCopies + 1;
      currentlyMaximized := true;
    }

    /** Removes the enlarged copy, if there is one. */
    method DemaximizeCard()
      requires Valid()
      modifies this`currentlyMaximized, this`maximizedCopies
      ensures Valid() && !currentlyMaximized && maximizedCopies == 0
    {
      if !currentlyMaximized {
        return;
      }
      maximizedCopies := maximizedCopies - 1;
      currentlyMaximized := false;
    }

    /** The discard-pile update every client applies. */
    method AddToDiscarded()
      modifies cm`DPile
      ensures cm.DPile == old(cm.DPile) + [cardBody]
    {
      cm.DPile := cm.DPile + [cardBody];
    }

    /** The hand update every client applies; other player numbers are
        ignored. */
    method RemoveCard(player: int)
      modifies cm`P1Hand, cm`P2Hand
      ensures cm.P1Hand == if player == 1 then RemoveFirst(old(cm.P1Hand), cardBody) else old(cm.P1Hand)
      ensures cm.P2Hand == if player == 2 then RemoveFirst(old(cm.P2Hand), cardBody) else old(cm.P2Hand)
    {
      match player {
        case 1 => cm.P1Hand := RemoveFirst(cm.P1Hand, cardBody);
        case 2 => cm.P2Hand := RemoveFirst(cm.P2Hand, cardBody);
        case _ =>
      }
    }

    /** The persistent-area update every client applies: free the slot and
        drop the card from the owner's list; other player numbers are
        ignored. */
    method RemoveFromPersistent(player: int)
      requires pcm.Valid()
      requires player == 1 ==> 0 <= PHandPosition < pcm.P1OpenPCardSlots.Length
      requires player == 2 ==> 0 <= PHandPosition < pcm.P2OpenPCardSlots.Length
      modifies pcm`P1PersistentCards, pcm`P2PersistentCards, pcm.P1OpenPCardSlots, pcm.P2OpenPCardSlots
      ensures pcm.P1OpenPCardSlots[..] ==
        if player == 1 then old(pcm.P1OpenPCardSlots[..])[PHandPosition := true] else old(pcm.P1OpenPCardSlots[..])
      ensures pcm.P2OpenPCardSlots[..] ==
        if player == 2 then old(pcm.P2OpenPCardSlots[..])[PHandPosition := true] else old(pcm.P2OpenPCardSlots[..])
      ensures pcm.P1PersistentCards ==
        if player == 1 then RemoveFirst(old(pcm.P1PersistentCards), cardBody) else old(pcm.P1PersistentCards)
      ensures pcm.P2PersistentCards ==
        if player == 2 then RemoveFirst(old(pcm.P2PersistentCards), cardBody) else old(pcm.P2PersistentCards)
    {
      match player {
        case 1 =>
          pcm.P1OpenPCardSlots[PHandPosition] := true;
          pcm.P1PersistentCards := RemoveFirst(pcm.P1PersistentCards, cardBody);
        case 2 =>
          pcm.P2OpenPCardSlots[PHandPosition] := true;
          pcm.P2PersistentCards := RemoveFirst(pcm.P2PersistentCards, cardBody);
        case _ =>
      }
    }

    /** Frees the hand slot of a card that is not in a persistent area. */
    method ReleaseHandSlot()
      requires Valid() && SlotsInRange(Card(), Board())
      requires !MadePersistentP1 && !MadePersistentP2
      modifies cm`P1Hand, cm`P2Hand, cm.P1OpenHandPositions, cm.P2OpenHandPositions
      ensures Board() == Released(Card(), old(Board()), cardBody)
    {
      if HeldByPlayer == 1 {
        cm.P1OpenHandPositions[HandPosition] := true;
        RemoveCard(1);
      } else if HeldByPlayer == 2 {
        cm.P2OpenHandPositions[HandPosition] := true;
        RemoveCard(2);
      }
    }

    /** Frees the slot of a card in a persistent area; the slot is marked
        open here and once more by the remote update. */
    method ReleasePersistentSlot()
      requires Valid() && SlotsInRange(Card(), Board())
      requires MadePersistentP1 || MadePersistentP2
      modifies pcm`P1PersistentCards, pcm`P2PersistentCards, pcm.P1OpenPCardSlots, pcm.P2OpenPCardSlots
      ensures Board() == Released(Card(), old(Board()), cardBody)
    {
      if MadePersistentP1 {
        pcm.P1OpenPCardSlots[PHandPosition] := true;
        RemoveFromPersistent(1);
      } else {
        pcm.P2OpenPCardSlots[PHandPosition] := true;
        RemoveFromPersistent(2);
      }
    }

    /** Frees whichever slot the card holds: its hand slot, or its
        persistent slot once it has been made persistent. */
    method ReleaseSlot()
      requires Valid() && SlotsInRange(Card(), Board())
      modifies cm`P1Hand, cm`P2Hand, cm.P1OpenHandPositions, cm.P2OpenHandPositions,
        pcm`P1PersistentCards, pcm`P2PersistentCards, pcm.P1OpenPCardSlots, pcm.P2OpenPCardSlots
      ensures Board() == Released(Card(), old(Board()), cardBody)
    {
      if !MadePersistentP1 && !MadePersistentP2 {
        ReleaseHandSlot();
      } else {
        ReleasePersistentSlot();
      }
    }

    /** The card is held by nobody and can no longer be used. */
    method ClearFlags()
      modifies this`HeldByPlayer, this`Selected, this`CanBeSelected, this`CanBeDiscarded,
        this`CanBeActivated, this`MadePersistentP1, this`MadePersistentP2
      ensures Card() == DiscardedCard(old(Card())).(gettingDiscarded := gettingDiscarded)
    {
      HeldByPlayer := 0;
      Selected, CanBeSelected, CanBeDiscarded, CanBeActivated := false, false, false, false;
      MadePersistentP1, MadePersistentP2 := false, false;
    }

    /** The part of the discard that runs before its animation wait: the
        slot is released, the card goes on the discard pile, its flags are
        cleared and its enlarged copy removed. A card in hand keeps its
        persistent flags, which are then already clear. */
    method ToDiscard()
      requires Valid() && SlotsInRange(Card(), Board())
      modifies this, cm`P1Hand, cm`P2Hand, cm`DPile, cm.P1OpenHandPositions, cm.P2OpenHandPositions,
        pcm`P1PersistentCards, pcm`P2PersistentCards, pcm.P1OpenPCardSlots, pcm.P2OpenPCardSlots
      ensures Valid() && !currentlyMaximized
      ensures Card() == DiscardedCard(old(Card()))
      ensures Board() == DiscardedTables(old(Card()), old(Board()), cardBody)
    {
      ReleaseSlot();
      ClearFlags();
      AddToDiscarded();
      DemaximizeCard();
      gettingDiscarded := true;
    }

    /** The part of the discard that runs after its animation wait: the
        animation is over and the card's body is hidden on every client. */
    method FinishDiscard()
      modifies this`gettingDiscarded, this`bodyActive
      ensures Card() == old(Card()).(gettingDiscarded := false, bodyActive := false)
    {
      gettingDiscarded := false;
      bodyActive := false;
    }

    /** Moves the card's cost from the paying player's refined piles to the
        supply. */
    method PayCost(player: int)
      requires am.Valid()
      modifies am.P1RefinedPile, am.P2RefinedPile, am.SupplyPile
      ensures Stock() == PayFrom(old(Stock()), player, cost)
    {
      var refined := if player == 1 then am.P1RefinedPile else am.P2RefinedPile;
      refined[GrassPile] := refined[GrassPile] - cost.grass;
      refined[DirtPile] := refined[DirtPile] - cost.dirt;
      refined[StonePile] := refined[StonePile] - cost.stone;
      am.SupplyPile[GrassPile] := am.SupplyPile[GrassPile] + cost.grass;
      am.SupplyPile[DirtPile] := am.SupplyPile[DirtPile] + cost.dirt;
      am.SupplyPile[StonePile] := am.SupplyPile[StonePile] + cost.stone;
    }

    /** One activation used up, and the card manager's stop on further
        activations by the paying player, as it affects this card. */
    method UseActivation()
      requires Valid()
      modifies this`CanBeActivated, cm`AllowedActivations
      ensures Valid()
      ensures cm.AllowedActivations == old(cm.AllowedActivations) - 1
      ensures Card() == ActivationStopped(old(Card()), Board(), cardBody, am.CurrentPlayer)
    {
      cm.AllowedActivations := cm.AllowedActivations - 1;
      var hand := if am.CurrentPlayer == 1 then cm.P1Hand else cm.P2Hand;
      if cardBody in hand {
        CanBeActivated := false;
      }
    }

    /** The effect of an activation that passed its checks: payment, one
        activation used up, and the discard of a card that does not stay in
        play. */
    method Spend()
      requires Valid() && SlotsInRange(Card(), Board())
      modifies this, cm`P1Hand, cm`P2Hand, cm`DPile, cm`AllowedActivations,
        cm.P1OpenHandPositions, cm.P2OpenHandPositions,
        pcm`P1PersistentCards, pcm`P2PersistentCards, pcm.P1OpenPCardSlots, pcm.P2OpenPCardSlots,
        am.P1RefinedPile, am.P2RefinedPile, am.SupplyPile
      ensures Valid()
      ensures Stock() == PayFrom(old(Stock()), am.CurrentPlayer, cost)
      ensures cm.AllowedActivations == old(cm.AllowedActivations) - 1
      ensures !persistent ==>
        && Card() == DiscardedCard(old(Card()))
        && Board() == DiscardedTables(old(Card()), old(Board()), cardBody)
        && !currentlyMaximized
      ensures persistent ==>
        && Card() == ActivationStopped(old(Card()), old(Board()), cardBody, am.CurrentPlayer)
        && Board() == old(Board()) && currentlyMaximized == old(currentlyMaximized)
    {
      PayCost(am.CurrentPlayer);
      ghost var before, tables := Card(), Board();
      UseActivation();
      if !persistent {
        DiscardIgnoresStop(before, tables, cardBody, am.CurrentPlayer);
        ToDiscard();
      }
    }

    /** Activation: refused at the activation limit or when the current
        player cannot pay; otherwise the cost goes from the player's refined
        piles to the supply, one activation is used up, and a card that does
        not stay in play is discarded. */
    method ActivateCard() returns (outcome: Activation)
      requires Valid() && SlotsInRange(Card(), Board())
      modifies this, cm`P1Hand, cm`P2Hand, cm`DPile, cm`AllowedActivations,
        cm.P1OpenHandPositions, cm.P2OpenHandPositions,
        pcm`P1PersistentCards, pcm`P2PersistentCards, pcm.P1OpenPCardSlots, pcm.P2OpenPCardSlots,
        am.P1RefinedPile, am.P2RefinedPile, am.SupplyPile
      ensures Valid()
      ensures outcome == Outcome(old(cm.AllowedActivations), am.CurrentPlayer, old(Stock()), cost)
      ensures Stock() == if outcome == Activated then PayFrom(old(Stock()), am.CurrentPlayer, cost) else old(Stock())
      ensures cm.AllowedActivations == old(cm.AllowedActivations) - if outcome == Activated then 1 else 0
      ensures outcome == Activated && !persistent ==>
        && Card() == DiscardedCard(old(Card()))
        && Board() == DiscardedTables(old(Card()), old(Board()), cardBody)
        && !currentlyMaximized
      ensures outcome == Activated && persistent ==>
        && Card() == ActivationStopped(old(Card()), old(Board()), cardBody, am.CurrentPlayer)
        && Board() == old(Board()) && currentlyMaximized == old(currentlyMaximized)
      ensures outcome != Activated ==>
        Card() == old(Card()) && Board() == old(Board()) && currentlyMaximized == old(currentlyMaximized)
    {
      if cm.AllowedActivations == 0 {
        return LimitReached;
      }
      var paying := if am.CurrentPlayer == 1 then am.P1RefinedPile[..] else am.P2RefinedPile[..];
      if !Affordable(paying, cost) {
        return NotEnoughPieces;
      }
      Spend();
      return Activated;
    }

    /** What a left click leaves, from a card `c`, tables `t`, piles `p`,
        allowance `allowed` and enlargement `maximized` before it: a
        discardable card is discarded and loses its enlarged copy; a card in
        a persistent area changes nothing; any other card is selected or
        deselected if it can be, and then activated if it can be, with the
        effects `ActivateCard` states. */
    ghost predicate Clicked(c: CardState, t: Tables, p: Piles, allowed: int, maximized: bool)
      requires SlotsInRange(c, t) && PilesValid(p)
      reads this, cm, pcm, am, cm.P1OpenHandPositions, cm.P2OpenHandPositions,
        pcm.P1OpenPCardSlots, pcm.P2OpenPCardSlots, am.P1RefinedPile, am.P2RefinedPile, am.SupplyPile
    {
      if c.canBeDiscarded then
        && !currentlyMaximized
        && Card() == DiscardedCard(c) && Board() == DiscardedTables(c, t, cardBody)
        && Stock() == p && cm.AllowedActivations == allowed
      else if c.madePersistentP1 || c.madePersistentP2 then
        && Card() == c && Board() == t
        && Stock() == p && cm.AllowedActivations == allowed
        && currentlyMaximized == maximized
      else
        SelectedThenActivated(c, t, p, allowed, maximized)
    }

    /** What selecting (if the card can be selected) and then activating (if
        it can be activated) leaves, from the same starting values. */
    ghost predicate SelectedThenActivated(c: CardState, t: Tables, p: Piles, allowed: int, maximized: bool)
      requires SlotsInRange(c, t) && PilesValid(p)
      reads this, cm, pcm, am, cm.P1OpenHandPositions, cm.P2OpenHandPositions,
        pcm.P1OpenPCardSlots, pcm.P2OpenPCardSlots, am.P1RefinedPile, am.P2RefinedPile, am.SupplyPile
    {
      var (s, l) := if c.canBeSelected then ToggleSelection(c.selected, t.selectedCards, cardBody)
                    else (c.selected, t.selectedCards);
      ActivatedIfAllowed(c.(selected := s), t.(selectedCards := l), p, allowed, maximized)
    }

    /** What activating (if the card can be activated) leaves, from the same
        starting values: `ActivateCard`'s effects, or nothing at all. */
    ghost predicate ActivatedIfAllowed(c: CardState, t: Tables, p: Piles, allowed: int, maximized: bool)
      requires SlotsInRange(c, t) && PilesValid(p)
      reads this, cm, pcm, am, cm.P1OpenHandPositions, cm.P2OpenHandPositions,
        pcm.P1OpenPCardSlots, pcm.P2OpenPCardSlots, am.P1RefinedPile, am.P2RefinedPile, am.SupplyPile
    {
      var o := if c.canBeActivated then Outcome(allowed, am.CurrentPlayer, p, cost) else LimitReached;
      && currentlyMaximized == (if o == Activated && !persistent then false else maximized)
      && Stock() == (if o == Activated then PayFrom(p, am.CurrentPlayer, cost) else p)
      && cm.AllowedActivations == allowed - (if o == Activated then 1 else 0)
      && (o == Activated && !persistent ==> Card() == DiscardedCard(c) && Board() == DiscardedTables(c, t, cardBody))
      && (o == Activated && persistent ==> Card() == ActivationStopped(c, t, cardBody, am.CurrentPlayer) && Board() == t)
      && (o != Activated ==> Card() == c && Board() == t)
    }

    /** The activation step of a left click. */
    method ActivateIfAllowed()
      requires Valid() && SlotsInRange(Card(), Board())
      modifies this, cm`P1Hand, cm`P2Hand, cm`DPile, cm`AllowedActivations,
        cm.P1OpenHandPositions, cm.P2OpenHandPositions,
        pcm`P1PersistentCards, pcm`P2PersistentCards, pcm.P1OpenPCardSlots, pcm.P2OpenPCardSlots,
        am.P1RefinedPile, am.P2RefinedPile, am.SupplyPile
      ensures Valid()
      ensures ActivatedIfAllowed(old(Card()), old(Board()), old(Stock()), old(cm.AllowedActivations),
                                 old(currentlyMaximized))
    {
      if CanBeActivated {
        var _ := ActivateCard();
      }
    }

    /** The selection and activation steps of a left click. */
    method SelectThenActivate()
      requires Valid() && SlotsInRange(Card(), Board())
      modifies this, cm`SelectedCards, cm`P1Hand, cm`P2Hand, cm`DPile, cm`AllowedActivations,
        cm.P1OpenHandPositions, cm.P2OpenHandPositions,
        pcm`P1PersistentCards, pcm`P2PersistentCards, pcm.P1OpenPCardSlots, pcm.P2OpenPCardSlots,
        am.P1RefinedPile, am.P2RefinedPile, am.SupplyPile
      ensures Valid()
      ensures SelectedThenActivated(old(Card()), old(Board()), old(Stock()), old(cm.AllowedActivations),
                                    old(currentlyMaximized))
    {
      if CanBeSelected {
        SelectCard();
      }
      ActivateIfAllowed();
    }

    /** The left-click part of a frame, as `Clicked` describes it. */
    method Click()
      requires Valid() && SlotsInRange(Card(), Board())
      modifies this, cm`SelectedCards, cm`P1Hand, cm`P2Hand, cm`DPile, cm`AllowedActivations,
        cm.P1OpenHandPositions, cm.P2OpenHandPositions,
        pcm`P1PersistentCards, pcm`P2PersistentCards, pcm.P1OpenPCardSlots, pcm.P2OpenPCardSlots,
        am.P1RefinedPile, am.P2RefinedPile, am.SupplyPile
      ensures Valid()
      ensures Clicked(old(Card()), old(Board()), old(Stock()), old(cm.AllowedActivations), old(currentlyMaximized))
    {
      if CanBeDiscarded {
        ToDiscard();
      }
      if MadePersistentP1 || MadePersistentP2 {
        return;
      }
      SelectThenActivate();
    }

    /** One frame with the pointer over the card: the right button enlarges
        and shrinks it; nothing else happens during a discard animation or
        without a left click. */
    method OnMouseOver(input: MouseInput)
      requires Valid() && SlotsInRange(Card(), Board())
      modifies this, cm`SelectedCards, cm`P1Hand, cm`P2Hand, cm`DPile, cm`AllowedActivations,
        cm.P1OpenHandPositions, cm.P2OpenHandPositions,
        pcm`P1PersistentCards, pcm`P2PersistentCards, pcm.P1OpenPCardSlots, pcm.P2OpenPCardSlots,
        am.P1RefinedPile, am.P2RefinedPile, am.SupplyPile
      ensures Valid()
      ensures old(gettingDiscarded) || !input.leftPressed ==>
        && Card() == old(Card()) && Board() == old(Board())
        && Stock() == old(Stock()) && cm.AllowedActivations == old(cm.AllowedActivations)
        && currentlyMaximized == Zoomed(old(currentlyMaximized), input)
      ensures !old(gettingDiscarded) && input.leftPressed ==>
        Clicked(old(Card()), old(Board()), old(Stock()), old(cm.AllowedActivations),
                Zoomed(old(currentlyMaximized), input))
    {
      if input.rightHeld {
        MaximizeCard();
      }
      if input.rightReleased {
        DemaximizeCard();
      }
      if gettingDiscarded || !input.leftPressed {
        return;
      }
      Click();
    }
  }
}

=== FILE: decimal.dfy ===
/** Decimal rendering of integers, as `int.ToString()` writes them: the
    digits of the magnitude, most significant first, with a leading '-' for
    negative numbers. The code formats with the current culture, whose
    negative sign could be another character; screen sizes are never
    negative, so the labels do not depend on it. `ParseInt` reads such text
    back. */
module Decimal {

  predicate IsDigit(c: char) {
    '0' <= c <= '9'
  }

  function DigitChar(d: nat): (c: char)
    requires d < 10
    ensures IsDigit(c)
  {
    (48 + d) as char
  }

  function DigitValue(c: char): nat
    requires IsDigit(c)
  {
    c as nat - 48
  }

  /** Digits of `n`, without leading zeros ("0" for zero). */
  function NatToString(n: nat): (s: string)
    decreases n
  {
    if n < 10 then [DigitChar(n)] else NatToString(n / 10) + [DigitChar(n % 10)]
  }

  function IntToString(i: int): string {
    if i < 0 then "-" + NatToString(-i) else NatToString(i)
  }

  predicate AllDigits(s: string) {
    forall k :: 0 <= k < |s| ==> IsDigit(s[k])
  }

  /** Value of a digit string, read from the most significant digit. */
  function ParseNat(s: string): nat
    requires AllDigits(s)
  {
    if s == [] then 0 else ParseNat(s[..|s| - 1]) * 10 + DigitValue(s[|s| - 1])
  }

  function ParseInt(s: string): int
    requires |s| > 0
    requires s[0] == '-' ==> AllDigits(s[1..])
    requires s[0] != '-' ==> AllDigits(s)
  {
    if s[0] == '-' then -(ParseNat(s[1..]) as int) else ParseNat(s)
  }

  /** The rendering of a natural number is a non-empty digit string that reads
      back as the number. */
  lemma {:induction false} NatToStringRoundTrip(n: nat)
    ensures var s := NatToString(n); |s| > 0 && AllDigits(s) && ParseNat(s) == n
    decreases n
  {
    if n >= 10 {
      NatToStringRoundTrip(n / 10);
      var s := NatToString(n);
      var p := NatToString(n / 10);
      assert s == p + [DigitChar(n % 10)];
      assert s[..|s| - 1] == p;
    }
  }

  /** `IntToString` is inverted by `ParseInt`, so distinct integers render
      differently; neither form contains a space. */
  lemma IntToStringRoundTrip(i: int)
    ensures var s := IntToString(i);
      && |s| > 0
      && (s[0] == '-' ==> AllDigits(s[1..]))
      && (s[0] != '-' ==> AllDigits(s))
      && ParseInt(s) == i
      && ' ' !in s
  {
    var n: nat := if i < 0 then -i else i;
    NatToStringRoundTrip(n);
    var s := IntToString(i);
    if i < 0 {
      assert s[1..] == NatToString(n);
    } else {
      assert IsDigit(s[0]);
    }
  }
}

=== FILE: lists.dfy ===
/** The two list operations the card bookkeeping uses on its lists of card
    objects: appending (`List.Add`) and removing the first occurrence of an
    element (`List.Remove`), which leaves the list as it was when the element
    is absent. */
module Lists {

  /** Index of the first occurrence of `x` in `s`. */
  function FirstIndex<T(==)>(s: seq<T>, x: T): (i: nat)
    requires x in s
    ensures i < |s| && s[i] == x
    ensures x !in s[..i]
  {
    if s[0] == x then 0
    else
      assert x in s[1..] by { var k :| 0 <= k < |s| && s[k] == x; assert s[1..][k - 1] == x; }
      var j := FirstIndex(s[1..], x);
      assert s[..j + 1] == [s[0]] + s[1..][..j];
      j + 1
  }

  /** `List.Remove`: drops the first occurrence of `x`, if there is one. */
  function RemoveFirst<T(==)>(s: seq<T>, x: T): (r: seq<T>)
    ensures x !in s ==> r == s
    ensures x in s ==> |r| == |s| - 1
    ensures forall y :: y in r ==> y in s
  {
    if s == [] then []
    else if s[0] == x then s[1..]
    else [s[0]] + RemoveFirst(s[1..], x)
  }

  /** Removal cuts out exactly the element at the first index of `x`. */
  lemma {:induction false} RemoveFirstAt<T>(s: seq<T>, x: T)
    requires x in s
    ensures RemoveFirst(s, x) == s[..FirstIndex(s, x)] + s[FirstIndex(s, x) + 1..]
  {
    if s[0] != x {
      assert x in s[1..] by { var k :| 0 <= k < |s| && s[k] == x; assert s[1..][k - 1] == x; }
      RemoveFirstAt(s[1..], x);
      var j := FirstIndex(s[1..], x);
      assert FirstIndex(s, x) == j + 1;
      assert s[..j + 1] == [s[0]] + s[1..][..j];
      assert s[j + 2..] == s[1..][j + 1..];
    }
  }

  /** Removal takes away exactly one copy of `x` when there is one, and
      nothing otherwise. */
  lemma {:induction false} RemoveFirstMultiset<T>(s: seq<T>, x: T)
    ensures multiset(RemoveFirst(s, x)) == multiset(s) - multiset{x}
  {
    if s != [] {
      assert s == [s[0]] + s[1..];
      RemoveFirstMultiset(s[1..], x);
      if s[0] != x {
        assert RemoveFirst(s, x) == [s[0]] + RemoveFirst(s[1..], x);
      }
    }
  }

  /** An element held at most once is gone after its removal. */
  lemma RemoveFirstGone<T>(s: seq<T>, x: T)
    requires multiset(s)[x] <= 1
    ensures x !in RemoveFirst(s, x)
  {
    RemoveFirstMultiset(s, x);
  }

  /** Adding an element the list did not hold and then removing it gives back
      the original list. */
  lemma {:induction false} RemoveFirstAfterAdd<T>(s: seq<T>, x: T)
    requires x !in s
    ensures RemoveFirst(s + [x], x) == s
  {
    if s != [] {
      assert (s + [x])[1..] == s[1..] + [x];
      RemoveFirstAfterAdd(s[1..], x);
    }
  }
}

=== FILE: options.dfy ===
/** The options menu: the master-volume/mute pair that decides what the audio
    mixer's master channel receives, the other forwarded settings, and the
    resolution dropdown built from the screen's resolutions. Mixer levels are
    decibels, from -80 (silent) to 0. */
module Options {
  import opened Decimal

  /** The level the master channel is pinned to while muted. */
  const MutedLevel: real := -80.0

  /** The resolution the dropdown preselects when the screen offers it. */
  const PreferredWidth: int := 1920
  const PreferredHeight: int := 1080

  /** A screen mode. The screen lists each size once per refresh rate. */
  datatype Resolution = Resolution(width: int, height: int, refreshRate: int)

  /** The level the master channel should carry for a mute flag and a
      recorded master volume. */
  function MasterLevel(muted: bool, volume: real): real {
    if muted then MutedLevel else volume
  }

  predicate IsPreferred(r: Resolution) {
    r.width == PreferredWidth && r.height == PreferredHeight
  }

  /** The dropdown text for one resolution: "width x height". */
  function OptionLabel(r: Resolution): string {
    IntToString(r.width) + " x " + IntToString(r.height)
  }

  /** Position of the first space in `s`, or `|s|` when there is none. */
  function SpaceIndex(s: string): nat {
    if s == [] || s[0] == ' ' then 0 else 1 + SpaceIndex(s[1..])
  }

  lemma {:induction false} SpaceIndexAfterWord(w: string, rest: string)
    requires ' ' !in w && |rest| > 0 && rest[0] == ' '
    ensures SpaceIndex(w + rest) == |w|
  {
    if w != [] {
      assert (w + rest)[1..] == w[1..] + rest;
      SpaceIndexAfterWord(w[1..], rest);
    }
  }

  /** Two resolutions get the same dropdown text exactly when they have the
      same size: distinct sizes get distinct labels, while the modes of one
      size at different refresh rates share theirs. */
  lemma SameLabelIffSameSize(a: Resolution, b: Resolution)
    ensures OptionLabel(a) == OptionLabel(b) <==> a.width == b.width && a.height == b.height
  {
    if OptionLabel(a) == OptionLabel(b) {
      SizeFromLabel(a, b);
    }
  }

  lemma SizeFromLabel(a: Resolution, b: Resolution)
    requires OptionLabel(a) == OptionLabel(b)
    ensures a.width == b.width && a.height == b.height
  {
    var wa, wb := IntToString(a.width), IntToString(b.width);
    var ha, hb := IntToString(a.height), IntToString(b.height);
    IntToStringRoundTrip(a.width);
    IntToStringRoundTrip(b.width);
    IntToStringRoundTrip(a.height);
    IntToStringRoundTrip(b.height);
    var la, lb := OptionLabel(a), OptionLabel(b);
    assert la == wa + (" x " + ha);
    assert lb == wb + (" x " + hb);
    SpaceIndexAfterWord(wa, " x " + ha);
    SpaceIndexAfterWord(wb, " x " + hb);
    assert wa == la[..|wa|] == lb[..|wb|] == wb;
    assert ha == la[|wa| + 3..] == lb[|wb| + 3..] == hb;
  }

  /** The index `PrepareResolutions` preselects for a list of resolutions:
      that of the last 1920x1080 entry, or 0 when there is none. */
  function DefaultIndex(rs: seq<Resolution>): (index: int)
    ensures 0 <= index && (|rs| > 0 ==> index < |rs|)
  {
    if rs == [] then 0
    else if IsPreferred(rs[|rs| - 1]) then |rs| - 1
    else DefaultIndex(rs[..|rs| - 1])
  }

  /** The preselected index is the last preferred entry when one exists, and
      0 otherwise. */
  lemma {:induction false} DefaultIndexIsLastPreferred(rs: seq<Resolution>)
    ensures (exists i :: 0 <= i < |rs| && IsPreferred(rs[i])) ==>
      IsPreferred(rs[DefaultIndex(rs)]) && forall j :: DefaultIndex(rs) < j < |rs| ==> !IsPreferred(rs[j])
    ensures (forall i :: 0 <= i < |rs| ==> !IsPreferred(rs[i])) ==> DefaultIndex(rs) == 0
  {
    if rs != [] && !IsPreferred(rs[|rs| - 1]) {
      var init := rs[..|rs| - 1];
      DefaultIndexIsLastPreferred(init);
      if exists i :: 0 <= i < |rs| && IsPreferred(rs[i]) {
        var i :| 0 <= i < |rs| && IsPreferred(rs[i]);
        assert IsPreferred(init[i]);
      } else {
        assert forall i :: 0 <= i < |init| ==> !IsPreferred(init[i]) by {
          forall i | 0 <= i < |init| ensures !IsPreferred(init[i]) { assert init[i] == rs[i]; }
        }
      }
    }
  }

  /** The dropdown options for a list of resolutions, one label each, in
      order. */
  function Labels(rs: seq<Resolution>): seq<string> {
    seq(|rs|, k requires 0 <= k < |rs| => OptionLabel(rs[k]))
  }

  /** One more resolution adds its label to the options and moves the
      preselection to it exactly when it is the preferred one. */
  lemma PrefixStep(rs: seq<Resolution>, i: int)
    requires 0 <= i < |rs|
    ensures Labels(rs[..i + 1]) == Labels(rs[..i]) + [OptionLabel(rs[i])]
    ensures DefaultIndex(rs[..i + 1]) == if IsPreferred(rs[i]) then i else DefaultIndex(rs[..i])
  {
    var seen := rs[..i + 1];
    assert seen[..i] == rs[..i] && seen[i] == rs[i];
  }

  /** The body of `PrepareResolutions`: one "width x height" option per
      screen resolution, in the screen's order, and the index to preselect,
      which is the last 1920x1080 entry, or 0 when there is none. */
  method ResolutionOptions(resolutions: seq<Resolution>) returns (options: seq<string>, index: int)
    ensures |options| == |resolutions|
    ensures forall i :: 0 <= i < |resolutions| ==> options[i] == OptionLabel(resolutions[i])
    ensures (exists i :: 0 <= i < |resolutions| && IsPreferred(resolutions[i])) ==>
      0 <= index < |resolutions| && IsPreferred(resolutions[index])
      && forall j :: index < j < |resolutions| ==> !IsPreferred(resolutions[j])
    ensures (forall i :: 0 <= i < |resolutions| ==> !IsPreferred(resolutions[i])) ==> index == 0
    ensures options == Labels(resolutions) && index == DefaultIndex(resolutions)
  {
    options := [];
    index := 0;
    for i := 0 to |resolutions|
      invariant options == Labels(resolutions[..i])
      invariant index == DefaultIndex(resolutions[..i])
    {
      PrefixStep(resolutions, i);
      var option := OptionLabel(resolutions[i]);
      options := options + [option];
      if resolutions[i].width == PreferredWidth && resolutions[i].height == PreferredHeight {
        index := i;
      }
    }
    assert resolutions[..|resolutions|] == resolutions;
    DefaultIndexIsLastPreferred(resolutions);
  }

  class OptionsMenu {
    /** The master volume last requested, kept while muted. */
    var curMasterVolume: real
    var currentlyMuted: bool
    /** The last values sent to the mixer's three exposed parameters. */
    var masterChannel: real
    var musicChannel: real
    var soundChannel: real
    /** The game-wide help and weather settings shared between scenes. */
    var helpEnabled: bool
    var weatherOption: int
    /** The screen's resolutions and the resolution dropdown's state. */
    var resolutions: seq<Resolution>
    var dropdownOptions: seq<string>
    var dropdownValue: int

    /** A fresh menu: nothing recorded yet, not muted; the mixer starts at the
        levels its asset was saved with, which are parameters here. */
    constructor (master: real, music: real, sound: real, help: bool, weather: int)
      ensures curMasterVolume == 0.0 && !currentlyMuted
      ensures masterChannel == master && musicChannel == music && soundChannel == sound
      ensures helpEnabled == help && weatherOption == weather
      ensures resolutions == [] && dropdownOptions == [] && dropdownValue == 0
    {
      curMasterVolume, currentlyMuted := 0.0, false;
      masterChannel, musicChannel, soundChannel := master, music, sound;
      helpEnabled, weatherOption := help, weather;
      resolutions, dropdownOptions, dropdownValue := [], [], 0;
    }

    /** Runs at start-up: reads the screen's resolutions and fills the
        dropdown. */
    method PrepareResolutions(screenResolutions: seq<Resolution>)
      modifies this`resolutions, this`dropdownOptions, this`dropdownValue
      ensures resolutions == screenResolutions
      ensures dropdownOptions == Labels(resolutions) && dropdownValue == DefaultIndex(resolutions)
    {
      resolutions := screenResolutions;
      var options, index := ResolutionOptions(resolutions);
      dropdownOptions := options;
      dropdownValue := index;
    }

    method SetMusicVolume(volume: real)
      modifies this`musicChannel
      ensures musicChannel == volume
    {
      musicChannel := volume;
    }

    method SetSoundVolume(volume: real)
      modifies this`soundChannel
      ensures soundChannel == volume
    {
      soundChannel := volume;
    }

    /** Records the requested volume even while muted; the master channel
        receives it only when not muted. */
    method SetMasterVolume(volume: real)
      modifies this`curMasterVolume, this`masterChannel
      ensures curMasterVolume == volume
      ensures masterChannel == MasterLevel(currentlyMuted, volume)
      ensures currentlyMuted ==> masterChannel == MutedLevel
    {
      curMasterVolume := volume;
      if currentlyMuted {
        masterChannel := MutedLevel;
      } else {
        masterChannel := curMasterVolume;
      }
    }

    /** Muting pins the master channel to -80; unmuting sends the last
        recorded master volume again. */
    method SetMuted(isMuted: bool)
      modifies this`currentlyMuted, this`masterChannel
      ensures currentlyMuted == isMuted
      ensures masterChannel == MasterLevel(isMuted, curMasterVolume)
      ensures !isMuted ==> masterChannel == curMasterVolume
    {
      if isMuted {
        masterChannel := MutedLevel;
        currentlyMuted := true;
      } else {
        masterChannel := curMasterVolume;
        currentlyMuted := false;
      }
    }

    method SetWeather(weatherIndex: int)
      modifies this`weatherOption
      ensures weatherOption == weatherIndex
    {
      weatherOption := weatherIndex;
    }

    method SetHelpToggle(enabled: bool)
      modifies this`helpEnabled
      ensures helpEnabled == enabled
    {
      if enabled {
        helpEnabled := true;
      } else {
        helpEnabled := false;
      }
    }
  }

  /** A volume chosen while muted is what the master channel gets back on
      unmuting, whatever it carried before. */
  method VolumeChosenWhileMuted(menu: OptionsMenu, volume: real)
    modifies menu
    ensures menu.masterChannel == volume && !menu.currentlyMuted
  {
    menu.SetMuted(true);
    menu.SetMasterVolume(volume);
    assert menu.masterChannel == MutedLevel;
    menu.SetMuted(false);
  }
}

=== FILE: turns.dfy ===
/** The pass-and-play board canvas: the turn counters (player, turn, round,
    phase) and which menu zones each button leaves visible.

    Zone slots follow the canvas's reference arrays. Primary zones: 0 "First",
    1 "Then", 2 "Finally". Secondary zones: 0 "Then" actions, 1 "Finally"
    actions, 2 dig, 3 build, 4 build mine, 5 activate card. */
module Turns {

  const FirstZone := 0
  const ThenZone := 1
  const FinallyZone := 2
  const PrimaryZoneCount := 3

  const ThenActions := 0
  const FinallyActions := 1
  const DigZone := 2
  const BuildZone := 3
  const MineZone := 4
  const ActivateZone := 5
  const SecondaryZoneCount := 6

  /** Built-building slots: factories, burrows, and the grass, dirt and stone
      mines. */
  const Factories := 0
  const Burrows := 1
  const BuildingSlots := 5

  datatype Option<T> = None | Some(value: T)

  /** A canvas object the manager switches on and off. */
  datatype Zone =
    | StartTurnButton
    | Primary(player: int, slot: int)
    | Secondary(player: int, slot: int)

  /** The counters the action manager keeps about whose turn it is. */
  datatype Counters = Counters(player: int, turn: int, round: int, phase: int)

  /** The canvas buttons that change what is shown. */
  datatype Transition =
    | StartTurn | ToThenPhase | Dig | Build | OpenMineMenu
    | ToFinallyPhase | ActivateMenu | Back | EndTurn

  predicate IsPlayer(p: int) {
    p == 1 || p == 2
  }

  /** One player's primary zone references, in array order. */
  function PrimaryRefs(p: int): seq<Zone> {
    seq(PrimaryZoneCount, i => Primary(p, i))
  }

  function SecondaryRefs(p: int): seq<Zone> {
    seq(SecondaryZoneCount, i => Secondary(p, i))
  }

  /** The list the canvas builds at start-up: the start-turn button, then
      player 1's primary and secondary zones, then player 2's. */
  function CanvasList(): seq<Zone> {
    [StartTurnButton] + PrimaryRefs(1) + SecondaryRefs(1) + PrimaryRefs(2) + SecondaryRefs(2)
  }

  /** A primary and a secondary zone of player `p`, nothing for a player
      number other than 1 or 2. */
  function PlayerZones(p: int, primary: int, secondary: int): set<Zone> {
    if IsPlayer(p) then {Primary(p, primary), Secondary(p, secondary)} else {}
  }

  /** The canvas objects a transition leaves active, given the counters as
      they were when its button was pressed. */
  function Shown(t: Transition, c: Counters): set<Zone> {
    match t
    case StartTurn => if IsPlayer(c.player) then {Primary(c.player, FirstZone)} else {}
    case ToThenPhase => PlayerZones(c.player, ThenZone, ThenActions)
    case Dig => PlayerZones(c.player, ThenZone, DigZone)
    case Build => PlayerZones(c.player, ThenZone, BuildZone)
    case OpenMineMenu => PlayerZones(c.player, ThenZone, MineZone)
    case ToFinallyPhase => PlayerZones(c.player, FinallyZone, FinallyActions)
    case ActivateMenu => PlayerZones(c.player, FinallyZone, ActivateZone)
    case Back =>
      if c.phase == 2 then PlayerZones(c.player, ThenZone, ThenActions)
      else if c.phase == 3 then PlayerZones(c.player, FinallyZone, FinallyActions)
      else {}
    case EndTurn => if IsPlayer(c.player) then {StartTurnButton} else {}
  }

  /** The counters after a transition. */
  function Advance(t: Transition, c: Counters): Counters {
    match t
    case StartTurn => c.(phase := c.phase + 1)
    case ToThenPhase => c.(phase := c.phase + 1)
    case ToFinallyPhase => c.(phase := c.phase + 1)
    case EndTurn =>
      if c.player == 1 then Counters(2, c.turn + 1, c.round, 0)
      else if c.player == 2 then Counters(1, c.turn + 1, c.round + 1, 0)
      else c
    case _ => c
  }

  /** The counters after a run of transitions. */
  function Run(ts: seq<Transition>, c: Counters): Counters
    decreases |ts|
  {
    if ts == [] then c else Run(ts[1..], Advance(ts[0], c))
  }

  function EndTurnCount(ts: seq<Transition>): nat {
    if ts == [] then 0 else (if ts[0] == EndTurn then 1 else 0) + EndTurnCount(ts[1..])
  }

  /** `EndTurn` hands the turn to the other player, counts one more turn,
      starts the next round only after player 2, and resets the phase. */
  lemma EndTurnAlternates(c: Counters)
    requires IsPlayer(c.player)
    ensures var r := Advance(EndTurn, c);
      && r.player == 3 - c.player
      && r.turn == c.turn + 1
      && r.round == (if c.player == 2 then c.round + 1 else c.round)
      && r.phase == 0
  {
  }

  /** The three phase buttons move the phase on by exactly one; the menu
      buttons and `Back` leave every counter as it was. */
  lemma PhaseSteps(t: Transition, c: Counters)
    requires t != EndTurn
    ensures Advance(t, c).player == c.player
    ensures Advance(t, c).turn == c.turn && Advance(t, c).round == c.round
    ensures Advance(t, c).phase == c.phase + (if t in {StartTurn, ToThenPhase, ToFinallyPhase} then 1 else 0)
  {
  }

  /** Over any run of buttons starting with player 1 or 2: the player stays 1
      or 2 and is the other one after an odd number of `EndTurn`s, the turn
      counts the `EndTurn`s, and the round grows once per two of them (the
      first time after player 2's turn). */
  lemma {:induction false} RunCounters(ts: seq<Transition>, c: Counters)
    requires IsPlayer(c.player)
    ensures var r := Run(ts, c);
      && IsPlayer(r.player)
      && r.player == (if EndTurnCount(ts) % 2 == 0 then c.player else 3 - c.player)
      && r.turn == c.turn + EndTurnCount(ts)
      && r.round == c.round + (EndTurnCount(ts) + c.player - 1) / 2
    decreases |ts|
  {
    if ts != [] {
      var c' := Advance(ts[0], c);
      RunCounters(ts[1..], c');
    }
  }

  /** A player number other than 1 or 2 shows nothing, and only the phase
      buttons change a counter (the phase). */
  lemma UnknownPlayerShowsNothing(t: Transition, c: Counters)
    requires !IsPlayer(c.player)
    ensures Shown(t, c) == {}
    ensures Advance(t, c) == (if t in {StartTurn, ToThenPhase, ToFinallyPhase} then c.(phase := c.phase + 1) else c)
  {
  }

  /** `Back` returns to the menu of the phase in progress: the "Then" menu in
      phase 2, the "Finally" menu in phase 3, and nothing otherwise. */
  lemma BackReturnsToPhaseMenu(c: Counters)
    ensures Shown(Back, c) ==
      if c.phase == 2 then Shown(ToThenPhase, c)
      else if c.phase == 3 then Shown(ToFinallyPhase, c)
      else {}
  {
  }

  /** A button only ever shows the current player's own zones, besides the
      start-turn button. */
  lemma ShownBelongsToPlayer(t: Transition, c: Counters, z: Zone)
    requires z in Shown(t, c)
    ensures z == StartTurnButton || z.player == c.player
  {
  }

  /** Every zone a button shows is one of the canvas's listed objects, so the
      next `DisableObjects` switches it off again. */
  lemma {:induction false} ShownAreCanvasObjects(t: Transition, c: Counters)
    ensures forall z :: z in Shown(t, c) ==> z in CanvasList()
  {
    forall p, i | IsPlayer(p) && 0 <= i < PrimaryZoneCount
      ensures Primary(p, i) in CanvasList()
    {
      assert PrimaryRefs(p)[i] == Primary(p, i);
      if p == 1 { assert CanvasList()[1 + i] == Primary(p, i); }
      else { assert CanvasList()[10 + i] == Primary(p, i); }
    }
    forall p, i | IsPlayer(p) && 0 <= i < SecondaryZoneCount
      ensures Secondary(p, i) in CanvasList()
    {
      assert SecondaryRefs(p)[i] == Secondary(p, i);
      if p == 1 { assert CanvasList()[4 + i] == Secondary(p, i); }
      else { assert CanvasList()[13 + i] == Secondary(p, i); }
    }
    assert CanvasList()[0] == StartTurnButton;
  }

  /** Cards drawn at the end of a turn: the base draw plus one per built
      factory. */
  function CardsToDraw(cardDraw: int, built: seq<int>): int
    requires |built| == BuildingSlots
  {
    cardDraw + built[Factories]
  }

  /** The activation limit shown: the base allowance plus one per built
      burrow. */
  function ActivationLimit(cardActivations: int, built: seq<int>): int
    requires |built| == BuildingSlots
  {
    cardActivations + built[Burrows]
  }

  /** The mine count shown: the three kinds of mine together. */
  function MineCount(built: seq<int>): int
    requires |built| == BuildingSlots
  {
    built[2] + built[3] + built[4]
  }

  /** Each building kind drives exactly one of the displayed numbers: one more
      factory draws one more card, one more burrow allows one more
      activation, one more mine of any kind adds one to the mine count, and
      the other numbers stay as they were. */
  lemma OneMoreBuilding(cardDraw: int, cardActivations: int, built: seq<int>, slot: int)
    requires |built| == BuildingSlots && 0 <= slot < BuildingSlots
    ensures var more := built[slot := built[slot] + 1];
      && CardsToDraw(cardDraw, more) == CardsToDraw(cardDraw, built) + (if slot == Factories then 1 else 0)
      && ActivationLimit(cardActivations, more) == ActivationLimit(cardActivations, built) + (if slot == Burrows then 1 else 0)
      && MineCount(more) == MineCount(built) + (if slot >= 2 then 1 else 0)
  {
  }

  /** The part of the action manager the canvas drives: the turn counters and
      the numbers behind the end-of-turn draw and the activation text. */
  class ActionManager {
    var CurrentPlayer: int
    var CurrentTurn: int
    var CurrentRound: int
    var CurrentTurnPhase: int
    var CardDraw: int
    var CardActivations: int
    const P1BuiltBuildings: array<int>
    const P2BuiltBuildings: array<int>

    ghost predicate Valid() {
      P1BuiltBuildings.Length == BuildingSlots && P2BuiltBuildings.Length == BuildingSlots
    }

    function State(): Counters
      reads this
    {
      Counters(CurrentPlayer, CurrentTurn, CurrentRound, CurrentTurnPhase)
    }

    /** Player `startingPlayer` opens turn 1 of round 1 in phase 0, with no
        buildings built. */
    constructor (startingPlayer: int, cardDraw: int, cardActivations: int)
      ensures Valid()
      ensures State() == Counters(startingPlayer, 1, 1, 0)
      ensures CardDraw == cardDraw && CardActivations == cardActivations
      ensures P1BuiltBuildings[..] == P2BuiltBuildings[..] == seq(BuildingSlots, _ => 0)
      ensures fresh(P1BuiltBuildings) && fresh(P2BuiltBuildings)
    {
      CurrentPlayer, CurrentTurn, CurrentRound, CurrentTurnPhase := startingPlayer, 1, 1, 0;
      CardDraw, CardActivations := cardDraw, cardActivations;
      P1BuiltBuildings := new int[BuildingSlots](_ => 0);
      P2BuiltBuildings := new int[BuildingSlots](_ => 0);
    }
  }

  /** The canvas manager: its list of canvas objects, the ones currently
      active, and each player's overall panel (which is not in the list). */
  class CanvasManager {
    const am: ActionManager
    var canvasObjects: seq<Zone>
    var active: set<Zone>
    var p1Everything: bool
    var p2Everything: bool

    ghost predicate Valid()
      reads this
    {
      && canvasObjects == CanvasList()
      && (forall z :: z in active ==> z in canvasObjects)
      && am.Valid()
    }

    /** Start-up: list the canvas objects, switch them all off, and show the
        start-turn button. */
    constructor (actions: ActionManager, p1Panel: bool, p2Panel: bool)
      requires actions.Valid()
      ensures Valid() && am == actions
      ensures active == {StartTurnButton}
      ensures p1Everything == p1Panel && p2Everything == p2Panel
    {
      am := actions;
      canvasObjects := [];
      active := {};
      p1Everything, p2Everything := p1Panel, p2Panel;
      new;
      AssignToList();
      DisableObjects();
      active := active + {StartTurnButton};
    }

    /** Appends the start-turn button and every zone reference to the list. */
    method AssignToList()
      modifies this`canvasObjects
      ensures canvasObjects == old(canvasObjects) + CanvasList()
    {
      canvasObjects := canvasObjects + [StartTurnButton];
      ghost var before := canvasObjects;
      for i := 0 to PrimaryZoneCount
        invariant canvasObjects == before + PrimaryRefs(1)[..i]
      {
        canvasObjects := canvasObjects + [Primary(1, i)];
      }
      before := canvasObjects;
      for i := 0 to SecondaryZoneCount
        invariant canvasObjects == before + SecondaryRefs(1)[..i]
      {
        canvasObjects := canvasObjects + [Secondary(1, i)];
      }
      before := canvasObjects;
      for i := 0 to PrimaryZoneCount
        invariant canvasObjects == before + PrimaryRefs(2)[..i]
      {
        canvasObjects := canvasObjects + [Primary(2, i)];
      }
      before := canvasObjects;
      for i := 0 to SecondaryZoneCount
        invariant canvasObjects == before + SecondaryRefs(2)[..i]
      {
        canvasObjects := canvasObjects + [Secondary(2, i)];
      }
      assert PrimaryRefs(1)[..PrimaryZoneCount] == PrimaryRefs(1);
      assert PrimaryRefs(2)[..PrimaryZoneCount] == PrimaryRefs(2);
      assert SecondaryRefs(1)[..SecondaryZoneCount] == SecondaryRefs(1);
      assert SecondaryRefs(2)[..SecondaryZoneCount] == SecondaryRefs(2);
    }

    /** Switches off every listed canvas object. */
    method DisableObjects()
      modifies this`active
      ensures forall z :: z in active <==> z in old(active) && z !in canvasObjects
    {
      for i := 0 to |canvasObjects|
        invariant forall z :: z in active <==> z in old(active) && z !in canvasObjects[..i]
      {
        assert canvasObjects[..i + 1] == canvasObjects[..i] + [canvasObjects[i]];
        active := active - {canvasObjects[i]};
      }
      assert canvasObjects[..|canvasObjects|] == canvasObjects;
    }

    method StartTurn()
      requires Valid()
      modifies this`active, this`p1Everything, this`p2Everything, am`CurrentTurnPhase
      ensures Valid()
      ensures am.State() == Advance(Transition.StartTurn, old(am.State()))
      ensures active == Shown(Transition.StartTurn, old(am.State()))
      ensures p1Everything == (old(p1Everything) || old(am.CurrentPlayer) == 1)
      ensures p2Everything == (old(p2Everything) || old(am.CurrentPlayer) == 2)
    {
      DisableObjects();
      if am.CurrentPlayer == 1 {
        p1Everything := true;
        active := active + {Primary(1, FirstZone)};
      } else if am.CurrentPlayer == 2 {
        p2Everything := true;
        active := active + {Primary(2, FirstZone)};
      }
      am.CurrentTurnPhase := am.CurrentTurnPhase + 1;
      ShownAreCanvasObjects(Transition.StartTurn, old(am.State()));
    }

    method ToThenPhase()
      requires Valid()
      modifies this`active, am`CurrentTurnPhase
      ensures Valid()
      ensures am.State() == Advance(Transition.ToThenPhase, old(am.State()))
      ensures active == Shown(Transition.ToThenPhase, old(am.State()))
    {
      DisableObjects();
      if am.CurrentPlayer == 1 {
        active := active + {Primary(1, ThenZone), Secondary(1, ThenActions)};
      } else if am.CurrentPlayer == 2 {
        active := active + {Primary(2, ThenZone), Secondary(2, ThenActions)};
      }
      am.CurrentTurnPhase := am.CurrentTurnPhase + 1;
      ShownAreCanvasObjects(Transition.ToThenPhase, old(am.State()));
    }

    /** Shows the "Then" zone with one of its sub-menus; shared by `Dig`,
        `Build` and `OpenMineMenu`, which differ only in the sub-menu. */
    method ShowThenMenu(t: Transition, secondary: int)
      requires Valid()
      requires t in {Transition.Dig, Transition.Build, Transition.OpenMineMenu}
      requires secondary == (if t == Transition.Dig then DigZone else if t == Transition.Build then BuildZone else MineZone)
      modifies this`active
      ensures Valid()
      ensures active == Shown(t, am.State())
    {
      DisableObjects();
      if am.CurrentPlayer == 1 {
        active := active + {Primary(1, ThenZone), Secondary(1, secondary)};
      } else if am.CurrentPlayer == 2 {
        active := active + {Primary(2, ThenZone), Secondary(2, secondary)};
      }
      ShownAreCanvasObjects(t, am.State());
    }

    method Dig()
      requires Valid()
      modifies this`active
      ensures Valid()
      ensures active == Shown(Transition.Dig, am.State())
    {
      ShowThenMenu(Transition.Dig, DigZone);
    }

    method Build()
      requires Valid()
      modifies this`active
      ensures Valid()
      ensures active == Shown(Transition.Build, am.State())
    {
      ShowThenMenu(Transition.Build, BuildZone);
    }

    method OpenMineMenu()
      requires Valid()
      modifies this`active
      ensures Valid()
      ensures active == Shown(Transition.OpenMineMenu, am.State())
    {
      ShowThenMenu(Transition.OpenMineMenu, MineZone);
    }

    /** Moves the phase on first, then shows the "Finally" menu. */
    method ToFinallyPhase()
      requires Valid()
      modifies this`active, am`CurrentTurnPhase
      ensures Valid()
      ensures am.State() == Advance(Transition.ToFinallyPhase, old(am.State()))
      ensures active == Shown(Transition.ToFinallyPhase, old(am.State()))
    {
      am.CurrentTurnPhase := am.CurrentTurnPhase + 1;
      DisableObjects();
      if am.CurrentPlayer == 1 {
        active := active + {Primary(1, FinallyZone), Secondary(1, FinallyActions)};
      } else if am.CurrentPlayer == 2 {
        active := active + {Primary(2, FinallyZone), Secondary(2, FinallyActions)};
      }
      ShownAreCanvasObjects(Transition.ToFinallyPhase, old(am.State()));
    }

    method ActivateMenu()
      requires Valid()
      modifies this`active
      ensures Valid()
      ensures active == Shown(Transition.ActivateMenu, am.State())
    {
      DisableObjects();
      if am.CurrentPlayer == 1 {
        active := active + {Primary(1, FinallyZone), Secondary(1, ActivateZone)};
      } else if am.CurrentPlayer == 2 {
        active := active + {Primary(2, FinallyZone), Secondary(2, ActivateZone)};
      }
      ShownAreCanvasObjects(Transition.ActivateMenu, am.State());
    }

    method Back()
      requires Valid()
      modifies this`active
      ensures Valid()
      ensures active == Shown(Transition.Back, am.State())
    {
      DisableObjects();
      if am.CurrentPlayer == 1 {
        if am.CurrentTurnPhase == 2 {
          active := active + {Primary(1, ThenZone), Secondary(1, ThenActions)};
        } else if am.CurrentTurnPhase == 3 {
          active := active + {Primary(1, FinallyZone), Secondary(1, FinallyActions)};
        }
      } else if am.CurrentPlayer == 2 {
        if am.CurrentTurnPhase == 2 {
          active := active + {Primary(2, ThenZone), Secondary(2, ThenActions)};
        } else if am.CurrentTurnPhase == 3 {
          active := active + {Primary(2, FinallyZone), Secondary(2, FinallyActions)};
        }
      }
      ShownAreCanvasObjects(Transition.Back, am.State());
    }

    /** Ends the turn; `drawn` is the number of cards requested from the
        deck for the player whose turn ends (none for an unknown player). */
    method EndTurn() returns (drawn: Option<int>)
      requires Valid()
      modifies this`active, this`p1Everything, this`p2Everything,
        am`CurrentPlayer, am`CurrentTurn, am`CurrentRound, am`CurrentTurnPhase
      ensures Valid()
      ensures am.State() == Advance(Transition.EndTurn, old(am.State()))
      ensures active == Shown(Transition.EndTurn, old(am.State()))
      ensures p1Everything == (old(p1Everything) && old(am.CurrentPlayer) != 1)
      ensures p2Everything == (old(p2Everything) && old(am.CurrentPlayer) != 2)
      ensures drawn ==
        if old(am.CurrentPlayer) == 1 then Some(CardsToDraw(am.CardDraw, am.P1BuiltBuildings[..]))
        else if old(am.CurrentPlayer) == 2 then Some(CardsToDraw(am.CardDraw, am.P2BuiltBuildings[..]))
        else None
    {
      DisableObjects();
      drawn := None;
      if am.CurrentPlayer == 1 {
        drawn := Some(am.CardDraw + am.P1BuiltBuildings[Factories]);
        am.CurrentTurnPhase := 0;
        active := active + {StartTurnButton};
        p1Everything := false;
        am.CurrentTurn := am.CurrentTurn + 1;
        am.CurrentPlayer := 2;
      } else if am.CurrentPlayer == 2 {
        drawn := Some(am.CardDraw + am.P2BuiltBuildings[Factories]);
        am.CurrentTurnPhase := 0;
        active := active + {StartTurnButton};
        p2Everything := false;
        am.CurrentTurn := am.CurrentTurn + 1;
        am.CurrentRound := am.CurrentRound + 1;
        am.CurrentPlayer := 1;
      }
      ShownAreCanvasObjects(Transition.EndTurn, old(am.State()));
    }
  }
}
